=== FILE: README.md ===
# MigrateMongoDB, modelled in Dafny

This project models the console command `MigrateMongoDB`. The command copies
a relational (MySQL) database into a document store (MongoDB) and rewrites
foreign keys so that they point at the new document identifiers. A run has
four phases, strictly in order:

1. **Resolve foreign keys** (`loadForeignKeys`). It builds a map
   table → column → (referenced table, referenced column):
   - the declared constraints of the catalog come first, and a later
     catalog row for the same column overwrites an earlier one;
   - then every column of every table that has no entry yet goes through
     the naming rules, first match wins:
     - `created_by`, `updated_by`, `deleted_by` → `users.id`;
     - `brand_id` → `restaurants.id`;
     - `<base>_id` → `plural(base).id`.
2. **Copy every table** (`migrateTable`). Each row becomes one document
   with a freshly minted `_id`. When the table has a primary key (the first
   column flagged `PRI`), the key value moves to `mysql_id`, the key column
   is dropped, and the table's identity map (old key → new identifier) is
   recorded. All documents go into one bulk insert, and only when the table
   has rows.
3. **Write a debug snapshot** of the identity maps and the foreign-key
   map.
4. **Remap every table** (`remapForeignKeys`). For each document of the
   collection, each foreign-key column is handled as follows:
   - a missing or null value is skipped;
   - a value found in the referenced table's identity map is staged for
     replacement by the new identifier;
   - any other value stays and raises a warning.

   When something was staged, one `updateOne` keyed by the document's
   `_id` applies it.

   The remap can end the whole command with an error, and the model keeps
   that outcome:
   - A foreign-key field that already holds an ObjectId, whose referenced
     table has an identity map, is used as an array key in line 259. PHP
     throws a `TypeError` there.
   - A staged `$set` on `_id` (a foreign-key rule for a column named
     `_id`) is refused by the server, because `_id` cannot change.

   When either happens, the updates made so far stay. The document that
   threw, every later document and every later table stay as they were.
   A second run over an already remapped target is the usual way to get
   there (`ReferenceRemapper.RemapTwiceThrows`). A column named `_id` with
   a foreign-key rule is another: the copy overwrites it with the new
   ObjectId, which line 259 then uses as a key into the referenced
   table's identity map, when there is one. (Every column named `_id`
   gets a rule, since the naming rule strips the suffix `_id` and leaves
   the empty base name.) A first run never aborts
   when three things hold (`MigrateMongo.FreshRunCompletes`):
   - the listed collections of the target hold ObjectIds only in `_id`;
   - the table names are distinct;
   - no column named `_id` has a foreign-key rule whose referenced table
     has an identity map.

Modules:

- `Schema` holds the relational input: tables, the column catalog,
  declared constraints and rows of tagged values. It also defines the
  primary-key choice.
- `DocumentStore` is the sink. It has collections as sequences of
  documents, `insertMany`, `updateOne`, and the store invariant: `_id`s
  are unique per collection, and every ObjectId among them was minted
  before the counter.
- `ForeignKeys` holds the naming rules, the regular-expression capture of
  `^(.*)_id$`, and the resolution function `Resolved`. `Resolved` is the
  specification of `loadForeignKeys`.
- `TableMigrator` holds the row transform, the documents of a table and its
  identity map, each with its properties.
- `ReferenceRemapper` holds the per-document remap, the column loop, the
  cursor loop and the single-table round trip.
- `MigrateMongo` holds the class `MigrateMongoDB`. Its fields are the two
  maps of the source (`foreignKeys`, `tableIdMaps`), the store, the
  identifier counter, the warning log, the `updateOne` log and the debug
  file.
  - Its methods are proved against the pass functions `CopyPass`,
    `CopyIdMaps`, `RemapPass`, `PassWarnings` and `PassCalls`.
  - The lemmas about those functions state, table by table, what the two
    passes do.
  - `CrossTableReference` joins the two passes. Take a row's reference to a
    row of any listed table, earlier or later in the list, in a table the
    remap pass gets past. When the referenced table's key values are
    distinct, the reference ends up holding the identifier of that row's
    document. When the first key column repeats a value (possible with a
    composite key, since only its first column is used), the identity map
    holds the identifier of the last row with that value
    (`TableMigrator.IdMapMintedFor`).

The code as written has two behaviours worth knowing, and the model keeps
both:

- A primary-key column that is itself named `mysql_id` is first copied into
  `mysql_id` and then unset, so the document loses it
  (`TableMigrator.MigrateRowShape`).
- PHP's `$` also matches before a final newline, so a column `x_id\n`
  fits the convention with base `x` (`ForeignKeys.IdBase`).

## Model

| member | source | states |
|---|---|---|
| Schema.PrimaryKeyOfFirst | app/Console/Commands/MigrateMongoDB.php:88-99 | the primary key is the first catalog column flagged `PRI`; there is none exactly when no column is flagged |
| DocumentStore.InsertMany | app/Console/Commands/MigrateMongoDB.php:223-224 | the bulk insert appends the documents to the named collection and creates it if absent; the store gains exactly that name |
| DocumentStore.UpdateOne | app/Console/Commands/MigrateMongoDB.php:277-280 | `updateOne` never changes the number of documents of a collection |
| DocumentStore.UpdateOneAt | app/Console/Commands/MigrateMongoDB.php:277-280 | with unique identifiers, `updateOne` keyed by the `_id` of the `i`-th document `$set`s the fields on exactly that document |
| DocumentStore.AppendFreshValid | app/Console/Commands/MigrateMongoDB.php:213-216 | appending documents with freshly minted identifiers keeps identifiers unique and below the counter |
| DocumentStore.AppendOidOnlyInId | app/Console/Commands/MigrateMongoDB.php:223-224 | appending documents that hold ObjectIds only in `_id` to a collection of such documents gives a collection of such documents |
| DocumentStore.InsertFreshValid | app/Console/Commands/MigrateMongoDB.php:223-224 | the bulk insert of freshly minted documents keeps the whole store valid |
| ForeignKeys.Put | app/Console/Commands/MigrateMongoDB.php:121-124 | writing one (table, column) entry creates the table entry on demand, sets exactly that pair and leaves every other pair and table as it was |
| ForeignKeys.IdBase | app/Console/Commands/MigrateMongoDB.php:168-169 | a capture of `^(.*)_id$` has no newline, and the column is the capture followed by `_id` (or by `_id` and one final newline) |
| ForeignKeys.IdBaseOfSuffix | app/Console/Commands/MigrateMongoDB.php:168-169 | every newline-free base followed by `_id` matches, with exactly that base |
| ForeignKeys.ColumnRule | app/Console/Commands/MigrateMongoDB.php:149-177 | a naming rule always targets the `id` column; a column gets no rule exactly when it is not an audit column, not `brand_id` and does not match the convention |
| ForeignKeys.BrandIdBeatsConvention | app/Console/Commands/MigrateMongoDB.php:158-177 | `brand_id` matches the convention with base `brand`, yet resolves to `restaurants.id` |
| ForeignKeys.LastDeclared | app/Console/Commands/MigrateMongoDB.php:120-125 | the declared entry of a pair is absent exactly when no catalog row declares it; otherwise it is the target of the last catalog row for that pair |
| ForeignKeys.RulePrecedence | app/Console/Commands/MigrateMongoDB.php:120-177 | a declared pair keeps its declared target; an undeclared listed column gets audit → `users.id`, then `brand_id` → `restaurants.id`, then `<base>_id` → `plural(base).id`, else nothing; an unlisted column gets nothing |
| ForeignKeys.ExistingEntryKept | app/Console/Commands/MigrateMongoDB.php:143-147 | a pair that already has an entry is never overwritten by a naming rule |
| TableMigrator.MigrateRowShape | app/Console/Commands/MigrateMongoDB.php:200-214 | a document carries the minted `_id`. Without a key it is the row plus `_id`. With one, `mysql_id` holds the old key, the key column is gone and every other column is kept. A key column named `mysql_id` is lost |
| TableMigrator.MigrateRowOidOnlyInId | app/Console/Commands/MigrateMongoDB.php:200-214 | a document copied from a relational row holds an ObjectId in `_id` only |
| TableMigrator.MigratedDocs | app/Console/Commands/MigrateMongoDB.php:199-217 | one document per row |
| TableMigrator.MigratedDocFields | app/Console/Commands/MigrateMongoDB.php:199-217 | the `j`-th document carries the `j`-th minted identifier. It keeps the `j`-th row's value of every column except `_id` and, in a table with a primary key, the key column and `mysql_id` |
| TableMigrator.MigratedDocsSnoc | app/Console/Commands/MigrateMongoDB.php:216 | each row-loop step appends exactly the document of the next row |
| TableMigrator.MigratedDocsFresh | app/Console/Commands/MigrateMongoDB.php:202-214 | the documents of a table carry pairwise distinct identifiers, minted in row order from the counter on |
| TableMigrator.IdMapKeys | app/Console/Commands/MigrateMongoDB.php:206-208 | the identity map's keys are exactly the old key values of the rows |
| TableMigrator.PkValuesRelational | app/Console/Commands/MigrateMongoDB.php:207 | old key values read from the relational source are never minted identifiers |
| TableMigrator.IdMapMintedFor | app/Console/Commands/MigrateMongoDB.php:206-208 | every identity-map entry points at the identifier minted for the last row holding that old key, since a later row overwrites the entry |
| TableMigrator.IdMapRange | app/Console/Commands/MigrateMongoDB.php:203-208 | every identity-map entry is one of the identifiers minted for the table's own rows |
| TableMigrator.IdMapsApart | app/Console/Commands/MigrateMongoDB.php:203-208 | two identity maps built over non-overlapping identifier ranges share no identifier |
| TableMigrator.IdentityMapEntry | app/Console/Commands/MigrateMongoDB.php:206-208 | with distinct key values, the key of row `j` maps to the `j`-th minted identifier |
| TableMigrator.IdentityMapPointsToDocument | app/Console/Commands/MigrateMongoDB.php:205-214 | with distinct key values, every old key maps to the `_id` of its own row's document, and that document keeps the old key in `mysql_id` unless the key column is itself named `mysql_id` |
| TableMigrator.IdentityMapInjective | app/Console/Commands/MigrateMongoDB.php:203-208 | different old keys never share a new identifier |
| ReferenceRemapper.RemapDocFields | app/Console/Commands/MigrateMongoDB.php:245-281 | the remap keeps a document's field set. A foreign-key field whose value resolves gets the mapped identifier. Every other field is unchanged: missing, null and dangling references, and non-key fields |
| ReferenceRemapper.RemapAllField | app/Console/Commands/MigrateMongoDB.php:259-267 | after remapping a collection, a resolved foreign-key field of any document holds the identifier the identity map gives its old value |
| ReferenceRemapper.ColumnStep | app/Console/Commands/MigrateMongoDB.php:247-268 | handling one more column stages its new identifier exactly when it resolves, and adds its warning exactly when it dangles |
| ReferenceRemapper.ColumnsNoneAndAll | app/Console/Commands/MigrateMongoDB.php:245-268 | no column handled stages nothing and warns nothing; all columns handled gives the document's full `$updates` and warnings |
| ReferenceRemapper.FirstThrowIsFirst | app/Console/Commands/MigrateMongoDB.php:244-259 | the cursor stops at the first document whose remap throws: no earlier one throws, and that one does |
| ReferenceRemapper.StageUpdates | app/Console/Commands/MigrateMongoDB.php:245-268 | the column loop throws exactly when some foreign-key field holds an ObjectId whose referenced table has a map. Otherwise it stages exactly the resolved columns with their new identifiers and warns for exactly the dangling ones. When it throws, its warnings are some of the document's |
| ReferenceRemapper.RemapKeepsId | app/Console/Commands/MigrateMongoDB.php:277-280 | the remap of a document that does not throw never rewrites its own `_id` |
| ReferenceRemapper.PartialRemapValid | app/Console/Commands/MigrateMongoDB.php:244-282 | midway through the cursor, the collection keeps every identifier and stays valid |
| ReferenceRemapper.PartialRemapKeepsValid | app/Console/Commands/MigrateMongoDB.php:244-282 | the cursor loop keeps a collection valid, whether it finishes or throws |
| ReferenceRemapper.ThrowStopsCursor | app/Console/Commands/MigrateMongoDB.php:244-259 | a document that throws stops the cursor at or before it, and it and every later document are left as they were |
| ReferenceRemapper.RemapAllSnoc | app/Console/Commands/MigrateMongoDB.php:244-282 | remapping one more document of the cursor replaces exactly that document |
| ReferenceRemapper.RemapInPlace | app/Console/Commands/MigrateMongoDB.php:270-281 | the `updateOne` for the `i`-th cursor document, on the collection as the earlier updates left it, remaps exactly that document; with nothing staged, the document needs no change |
| ReferenceRemapper.RemapDocument | app/Console/Commands/MigrateMongoDB.php:245-281 | one cursor step throws exactly when the document throws, and then changes nothing and issues no call. Otherwise it issues `updateOne` with the staged `$set` only when something was staged, and reports the document's warnings |
| ReferenceRemapper.RemapCollection | app/Console/Commands/MigrateMongoDB.php:243-282 | the cursor loop throws exactly when some document throws. The documents before the first that throws are remapped, and it and the later ones are unchanged. The `updateOne` calls and warnings are those of the finished documents in cursor order, plus some warnings of the document that threw |
| ReferenceRemapper.CursorStops | app/Console/Commands/MigrateMongoDB.php:244-282 | when the `i`-th document is the first that throws, the collection, calls and warnings so far are those the cursor loop ends with |
| ReferenceRemapper.CursorEnds | app/Console/Commands/MigrateMongoDB.php:244-282 | when no document throws, the cursor loop remaps every document |
| ReferenceRemapper.RemapStep | app/Console/Commands/MigrateMongoDB.php:244-282 | one more document adds its warnings and its call, if any, to those of the earlier ones |
| ReferenceRemapper.ReferencedColumnIgnored | app/Console/Commands/MigrateMongoDB.php:248-249 | two foreign-key maps that differ only in referenced columns throw, remap and warn identically, for any table |
| ReferenceRemapper.ReferenceRoundTrip | app/Console/Commands/MigrateMongoDB.php:252-267 | a row copied into a table whose `_id` rule, if any, leads to a table without an identity map does not throw, and remapping its document turns a reference to a key of the referenced table (with distinct key values) into the `_id` of that key's document, also when that key column is named `mysql_id` |
| ReferenceRemapper.DanglingReferenceKept | app/Console/Commands/MigrateMongoDB.php:259-264 | a reference to a key no row holds, which does not throw, stays as it was and raises a warning for its value and referenced table |
| ReferenceRemapper.OidOnlyInIdNoThrow | app/Console/Commands/MigrateMongoDB.php:252-259 | a cursor whose documents hold ObjectIds only in `_id`, whose `_id` rule, if any, leads to a table without an identity map, never throws |
| ReferenceRemapper.ObjectIdReferenceThrows | app/Console/Commands/MigrateMongoDB.php:252-259 | a foreign-key field holding an ObjectId whose referenced table has a map throws, and the cursor stops there or earlier |
| ReferenceRemapper.RemapTwiceThrows | app/Console/Commands/MigrateMongoDB.php:252-267 | remapping a document a second time throws whenever the first remap resolved a reference |
| MigrateMongo.RemapKeepsIdsMinted | app/Console/Commands/MigrateMongoDB.php:252-274 | with identity maps that point below the counter (a conjunct of the command's invariant), the remap of a document whose ObjectIds were minted before the counter leaves only such ObjectIds: a rewritten reference points at an identifier the copy minted |
| MigrateMongo.RecordIdMapValid | app/Console/Commands/MigrateMongoDB.php:219-221 | recording a table's identity map keeps every map pointing at identifiers minted before the counter |
| MigrateMongo.MigrateRows | app/Console/Commands/MigrateMongoDB.php:196-217 | the row loop returns the documents of the table and, with a primary key, its identity map |
| MigrateMongo.MintedRangesDisjoint | app/Console/Commands/MigrateMongoDB.php:53-55 | the identifiers minted for a table all come after those of every earlier table |
| MigrateMongo.TableDocIdsDisjoint | app/Console/Commands/MigrateMongoDB.php:53-55 | the documents the copy loop writes for two different tables never share an `_id` |
| MigrateMongo.IdMapsDisjoint | app/Console/Commands/MigrateMongoDB.php:53-55 | with distinct table names, the identity maps of two different tables share no identifier |
| MigrateMongo.TableDocsOidOnlyInId | app/Console/Commands/MigrateMongoDB.php:199-217 | the documents the copy loop writes hold ObjectIds only in `_id` |
| MigrateMongo.CopiedOidOnlyInId | app/Console/Commands/MigrateMongoDB.php:53-55 | after the copy loop, a listed collection holds ObjectIds only in `_id` if it did before |
| MigrateMongo.TableNeverThrows | app/Console/Commands/MigrateMongoDB.php:67-69 | the remap of a table whose name occurs once in the list, whose `_id` rule, if any, leads to a table without an identity map, and whose collection held ObjectIds only in `_id` before the copy loop, does not throw |
| MigrateMongo.FreshRunCompletes | app/Console/Commands/MigrateMongoDB.php:53-69 | over a target whose listed collections hold ObjectIds only in `_id`, with distinct table names and no `_id` rule leading to a table with an identity map, the remap loop works through every table |
| MigrateMongo.CopyPassTable | app/Console/Commands/MigrateMongoDB.php:53-55 | after the copy loop, a table's collection is what it was plus that table's own documents, minted from that table's start |
| MigrateMongo.CopyPassKeeps | app/Console/Commands/MigrateMongoDB.php:53-55 | copying other tables never touches a table's collection |
| MigrateMongo.CopyIdMapsTable | app/Console/Commands/MigrateMongoDB.php:53-55 | after the copy loop, a table with a primary key has its identity map, built over its own rows from its own start |
| MigrateMongo.CopyIdMapsNoKey | app/Console/Commands/MigrateMongoDB.php:219-221 | the copy loop records no identity map for a table without a primary key |
| MigrateMongo.RemapPassKeys | app/Console/Commands/MigrateMongoDB.php:67-69 | the remap loop never adds or drops a collection |
| MigrateMongo.RemapPassTable | app/Console/Commands/MigrateMongoDB.php:67-69 | the remap loop rewrites a table's collection once from its copied contents when the table has foreign-key entries, and leaves it alone otherwise |
| MigrateMongo.StopFromIsFirst | app/Console/Commands/MigrateMongoDB.php:67-69 | the remap loop stops at the first table whose remap throws: no earlier one throws, and that one does |
| MigrateMongo.RemapPassReaches | app/Console/Commands/MigrateMongoDB.php:67-69 | a table before the one that throws is remapped in full, or left alone when it has no foreign-key entry |
| MigrateMongo.RemapPassOther | app/Console/Commands/MigrateMongoDB.php:67-69 | a collection whose name is not in the table list is left alone by the remap loop |
| MigrateMongo.ReferenceAcrossPasses | app/Console/Commands/MigrateMongoDB.php:53-69 | given a table's copied documents, the referenced table's copied documents and identity map, and the remapped collection, the reference of row `i` to row `q` holds the `_id` of row `q`'s document |
| MigrateMongo.CrossTableReference | app/Console/Commands/MigrateMongoDB.php:53-69 | after both loops over the whole table list, in a table the remap loop gets past, a row's reference to a row of any listed table (earlier or later, with distinct key values) holds the `_id` of that row's document |
| MigrateMongo.SeedDeclared | app/Console/Commands/MigrateMongoDB.php:120-125 | after the first loop, every pair holds its last declared target, or its earlier entry when undeclared |
| MigrateMongo.ApplyNamingRules | app/Console/Commands/MigrateMongoDB.php:140-178 | for one table, every listed column without an entry gets its naming rule; every existing entry, of any table, is kept |
| MigrateMongo.MigrateMongoDB.constructor | app/Console/Commands/MigrateMongoDB.php:28-38 | a fresh command starts with both maps empty, over a target store whose `_id`s are unique per collection and whose ObjectIds were minted before the counter |
| MigrateMongo.MigrateMongoDB.LoadForeignKeys | app/Console/Commands/MigrateMongoDB.php:101-185 | every (table, column) entry afterwards is `Resolved`: declared first, then the naming rules; no table entry is ever empty |
| MigrateMongo.MigrateMongoDB.MigrateTable | app/Console/Commands/MigrateMongoDB.php:188-229 | one identifier minted per row. The store gains the table's documents only if it has rows. The identity map is recorded only with a primary key. The store stays valid |
| MigrateMongo.MigrateMongoDB.RemapForeignKeys | app/Console/Commands/MigrateMongoDB.php:232-285 | a table with no foreign-key entry changes nothing. Otherwise the cursor loop runs until a document throws: the documents before it are remapped, their warnings are added and their `updateOne` calls are logged, and the method reports whether it threw |
| MigrateMongo.MigrateMongoDB.CopyTables | app/Console/Commands/MigrateMongoDB.php:53-55 | the copy loop leaves the store, identity maps and counter as the copy pass over the table list gives them |
| MigrateMongo.MigrateMongoDB.RemapTables | app/Console/Commands/MigrateMongoDB.php:67-69 | the remap loop throws exactly when some table throws, and leaves the store, warnings and update log as the remap pass gives them up to and including that table |
| MigrateMongo.MigrateMongoDB.Handle | app/Console/Commands/MigrateMongoDB.php:43-72 | the foreign keys are resolved, every table is copied, and the snapshot holds both maps. Only then are the tables remapped, against the identity maps of all tables, until one throws, which ends the command |

## Left out

- The relational catalog queries (`SHOW TABLES`, the column catalog and the
  key-column-usage catalog) are not run. Their answers are fields of the
  `Database` input. The two `getAllTableNames` calls (lines 47 and 130) are
  taken to return the same list, `db.tables`.
- The document-store client is an in-memory map from collection name to a
  sequence of documents. Driver errors and write concerns are not modelled.
  The only exceptions modelled are the `TypeError` of line 259 and the
  refused `$set` on `_id`; both end the command.
- `new ObjectId()` is a counter (`nextId`). Only freshness is modelled; the
  timestamp, machine and random parts of an ObjectId are not.
- `json_encode` and `Storage::put` (lines 58-64) become the `Snapshot` value
  stored in `debugFile`. JSON text and file I/O are not modelled.
- Console output from `info`/`warn` is not modelled, except the "could not
  find ObjectId" warning, which is kept as a `Warning` value. Line 262
  prints only the value and the referenced table; the `Warning` also
  records the table and column being remapped, which the message does not
  name.
- `Str::plural` is the parameter `plural`. Its inflection rules are not part
  of this model.
- PHP's array-key coercion is not modelled. Identity maps are keyed by the
  tagged value itself, so the string "5" and the integer 5 are different
  keys, and a null key is not turned into "".
- Field order inside documents is not modelled (documents are maps).
- Orders the source leaves to the servers are taken as fixed inputs. The
  cursor of line 243 is taken to return documents in insertion order. The
  column catalog (lines 90-96 and 133-138, no `ORDER BY`) is taken in the
  order of `Database.columns`, on which `Schema.PrimaryKeyOfFirst` depends
  when several columns are flagged `PRI`. The key-column-usage catalog
  (lines 106-117, no `ORDER BY`) is taken in the order of
  `Database.declared`, on which `ForeignKeys.LastDeclared` depends when a
  pair is declared twice.
- The order in which foreign-key columns are visited within one document is
  not modelled. Warnings are kept as a multiset. Staged updates are
  order-independent.
- MigrateMongo.MigrateMongoDB.RemapForeignKeys,
  MigrateMongo.MigrateMongoDB.RemapTables, MigrateMongo.MigrateMongoDB.Handle
  and ReferenceRemapper.RemapCollection: for the document that throws, the
  warnings it raised before throwing depend on the column order, so only
  "some of that document's warnings" is stated (`pending`), not which.
- The cursor is taken as the collection as it stood when `find()` opened.
  Each `updateOne` changes one document in place, so the cursor order and
  length are unaffected.
- `array_filter` of null updates (lines 272-274) is the identity. A staged
  value is always a minted identifier, never null.
- `if (!$newObjectId)` (line 261) is read as "not found". An ObjectId is
  always truthy.
- Relational values are tagged scalars (`Null`, `Int`, `Str`, `Bool`).
  Decimals, dates and floats are not distinguished from strings.
- A second run over the same target is modelled only as far as the remap
  throws (`ReferenceRemapper.RemapTwiceThrows`). The copy pass of that run
  inserts a second copy of every row, which `Handle` states.
- MigrateMongo.CopyPassTable, MigrateMongo.CopyIdMapsTable,
  MigrateMongo.RemapPassTable, MigrateMongo.RemapPassReaches,
  MigrateMongo.CopiedOidOnlyInId, MigrateMongo.TableNeverThrows,
  MigrateMongo.IdMapsDisjoint and MigrateMongo.FreshRunCompletes, hence
  MigrateMongo.CrossTableReference:
  require that the table's name occurs once in the list (`UniqueAt`), as it
  does in a `SHOW TABLES` answer. `Handle` itself makes no such
  assumption.
- MigrateMongo.CrossTableReference: requires that the remap loop gets past
  the referencing table (`j < PassStop`). A run that throws earlier leaves
  that table's references as copied. `FreshRunCompletes` gives a condition
  under which every table is passed.
- MigrateMongo.CrossTableReference, ReferenceRemapper.ReferenceRoundTrip
  and TableMigrator.IdentityMapPointsToDocument: require distinct key
  values in the referenced table (`DistinctPks`). With a repeated value the
  reference gets the identifier of the last row holding it, which is what
  `TableMigrator.IdMapMintedFor` states.
- MigrateMongo.MigrateMongoDB.MigrateTable: requires the table's rows to
  hold relational values only (no minted identifiers). This is always true
  of rows read from the relational source.

=== FILE: document_store.dfy ===
/** The document-store sink: one collection (a sequence of documents) per
    name, bulk insert, and the single-document `$set` update keyed by `_id`. */
module DocumentStore {
  import opened Schema

  type Doc = map<Name, Value>
  type Store = map<Name, seq<Doc>>

  /** The identity field of a document (`Null` if it has none). */
  function IdOf(d: Doc): Value
  {
    if "_id" in d then d["_id"] else Null
  }

  /** The documents of a collection; an absent collection reads as empty. */
  function Coll(store: Store, name: Name): seq<Doc>
  {
    if name in store then store[name] else []
  }

  predicate DistinctIds(c: seq<Doc>)
  {
    forall i, j :: 0 <= i < j < |c| ==> IdOf(c[i]) != IdOf(c[j])
  }

  /** Every minted identifier (ObjectId) in the collection is below
      `bound`; a document may also carry an `_id` of another type, written by
      another program. */
  predicate IdsBelow(c: seq<Doc>, bound: nat)
  {
    forall i :: 0 <= i < |c| && IdOf(c[i]).Oid? ==> IdOf(c[i]).id < bound
  }

  /** No field other than `_id` holds a minted identifier: the document was
      copied from relational values and not yet remapped. */
  predicate OidOnlyInId(d: Doc)
  {
    forall f :: f in d && f != "_id" ==> !d[f].Oid?
  }

  lemma AppendOidOnlyInId(a: seq<Doc>, b: seq<Doc>)
    requires forall d :: 0 <= d < |a| ==> OidOnlyInId(a[d])
    requires forall d :: 0 <= d < |b| ==> OidOnlyInId(b[d])
    ensures forall d :: 0 <= d < |a + b| ==> OidOnlyInId((a + b)[d])
  {
    forall d | 0 <= d < |a + b| ensures OidOnlyInId((a + b)[d]) {
      if d >= |a| {
        assert (a + b)[d] == b[d - |a|];
      }
    }
  }

  predicate CollectionValid(c: seq<Doc>, bound: nat)
  {
    DistinctIds(c) && IdsBelow(c, bound)
  }

  /** What the sink guarantees of every collection: identifiers are unique
      and every ObjectId among them was minted before `bound`. */
  predicate StoreValid(store: Store, bound: nat)
  {
    forall t :: t in store ==> CollectionValid(store[t], bound)
  }

  lemma StoreValidMono(store: Store, bound: nat, bound': nat)
    requires StoreValid(store, bound) && bound <= bound'
    ensures StoreValid(store, bound')
  {
  }

  /** `insertMany`: the documents are appended to the named collection. */
  function InsertMany(store: Store, name: Name, docs: seq<Doc>): (r: Store)
    ensures r.Keys == store.Keys + {name}
    ensures Coll(r, name) == Coll(store, name) + docs
    ensures forall t :: t != name ==> Coll(r, t) == Coll(store, t)
  {
    store[name := Coll(store, name) + docs]
  }

  /** `updateOne(['_id' => id], ['$set' => set])`: the first document whose
      identity is `id` gets the given fields; nothing else changes. */
  function UpdateOne(c: seq<Doc>, id: Value, fields: map<Name, Value>): (r: seq<Doc>)
    ensures |r| == |c|
  {
    if c == [] then []
    else if IdOf(c[0]) == id then [c[0] + fields] + c[1..]
    else [c[0]] + UpdateOne(c[1..], id, fields)
  }

  /** With unique identifiers, `updateOne` keyed by a document's own `_id`
      updates exactly that document. */
  lemma {:induction false} UpdateOneAt(c: seq<Doc>, i: nat, fields: map<Name, Value>)
    requires DistinctIds(c) && i < |c|
    ensures UpdateOne(c, IdOf(c[i]), fields) == c[i := c[i] + fields]
  {
    if i == 0 {
    } else {
      assert IdOf(c[0]) != IdOf(c[i]);
      var tail := c[1..];
      assert DistinctIds(tail) by {
        forall a, b | 0 <= a < b < |tail| ensures IdOf(tail[a]) != IdOf(tail[b]) {
          assert tail[a] == c[a + 1] && tail[b] == c[b + 1];
        }
      }
      assert tail[i - 1] == c[i];
      UpdateOneAt(tail, i - 1, fields);
      assert UpdateOne(c, IdOf(c[i]), fields) == [c[0]] + tail[i - 1 := tail[i - 1] + fields];
    }
  }

  /** Appending freshly minted documents keeps a collection valid. */
  lemma AppendFreshValid(c: seq<Doc>, docs: seq<Doc>, start: nat, bound: nat)
    requires CollectionValid(c, start) && CollectionValid(docs, bound)
    requires forall j :: 0 <= j < |docs| ==> IdOf(docs[j]).Oid? && IdOf(docs[j]).id >= start
    requires start <= bound
    ensures CollectionValid(c + docs, bound)
  {
    var r := c + docs;
    forall i, j | 0 <= i < j < |r| ensures IdOf(r[i]) != IdOf(r[j]) {
      if j < |c| {
      } else if i >= |c| {
        assert r[i] == docs[i - |c|] && r[j] == docs[j - |c|];
      } else {
        assert r[i] == c[i] && r[j] == docs[j - |c|];
      }
    }
  }

  /** A bulk insert of freshly minted documents keeps the store valid. */
  lemma InsertFreshValid(store: Store, name: Name, docs: seq<Doc>, start: nat, bound: nat)
    requires StoreValid(store, start) && CollectionValid(docs, bound)
    requires forall j :: 0 <= j < |docs| ==> IdOf(docs[j]).Oid? && IdOf(docs[j]).id >= start
    requires start <= bound
    ensures StoreValid(InsertMany(store, name, docs), bound)
  {
    assert CollectionValid(Coll(store, name), start);
    AppendFreshValid(Coll(store, name), docs, start, bound);
  }
}

=== FILE: foreign_keys.dfy ===
/** The foreign-key resolver: the map table -> column -> (referenced table,
    referenced column), seeded from declared constraints and completed by a
    fixed chain of naming rules. */
module ForeignKeys {
  import opened Schema

  datatype FkTarget = FkTarget(referencedTable: Name, referencedColumn: Name)

  type ForeignKeyMap = map<Name, map<Name, FkTarget>>

  function Lookup(fk: ForeignKeyMap, t: Name, c: Name): Option<FkTarget>
  {
    if t in fk && c in fk[t] then Some(fk[t][c]) else None
  }

  /** `$foreignKeys[t][c] = target`: creates the table entry on demand. */
  function Put(fk: ForeignKeyMap, t: Name, c: Name, target: FkTarget): (r: ForeignKeyMap)
    ensures r.Keys == fk.Keys + {t}
    ensures forall t', c' :: Lookup(r, t', c') == if t' == t && c' == c then Some(target) else Lookup(fk, t', c')
    ensures t in r && c in r[t]
    ensures forall t' :: t' in fk && t' != t ==> r[t'] == fk[t']
  {
    fk[t := (if t in fk then fk[t] else map[])[c := target]]
  }

  /** A table present in the map has at least one resolved column. */
  predicate NoEmptyTables(fk: ForeignKeyMap)
  {
    forall t :: t in fk ==> fk[t] != map[]
  }

  const AuditColumns: set<Name> := {"created_by", "updated_by", "deleted_by"}
  const UsersId: FkTarget := FkTarget("users", "id")
  const RestaurantsId: FkTarget := FkTarget("restaurants", "id")

  /** The capture of `^(.*)_id$` (PCRE defaults: `.` stops at a newline and
      `$` also matches before one final newline), or None if no match. */
  function IdBase(c: Name): (base: Option<Name>)
    ensures base.Some? ==> '\n' !in base.value && (c == base.value + "_id" || c == base.value + "_id\n")
  {
    var n := |c|;
    if n >= 3 && c[n - 3..] == "_id" && '\n' !in c[..n - 3] then Some(c[..n - 3])
    else if n >= 4 && c[n - 4..] == "_id\n" && '\n' !in c[..n - 4] then Some(c[..n - 4])
    else None
  }

  /** Every newline-free base, followed by `_id`, matches with that base. */
  lemma IdBaseOfSuffix(b: Name)
    requires '\n' !in b
    ensures IdBase(b + "_id") == Some(b)
    ensures IdBase(b + "_id\n") == Some(b)
  {
    var c := b + "_id";
    assert c[..|b|] == b && c[|b|..] == "_id";
    var c' := b + "_id\n";
    assert c'[..|b|] == b && c'[|b|..] == "_id\n";
    assert c'[|c'| - 3..] == "id\n";
  }

  /** The naming rules for a column without a declared key, tried in order:
      audit columns, then `brand_id`, then the `<base>_id` convention. */
  function ColumnRule(c: Name, plural: Name -> Name): (r: Option<FkTarget>)
    ensures r.Some? ==> r.value.referencedColumn == "id"
    ensures r.None? <==> c !in AuditColumns && c != "brand_id" && IdBase(c).None?
  {
    if c in AuditColumns then Some(UsersId)
    else if c == "brand_id" then Some(RestaurantsId)
    else match IdBase(c)
      case Some(b) => Some(FkTarget(plural(b), "id"))
      case None => None
  }

  /** `brand_id` fits the `<base>_id` pattern, yet the fixed rule wins. */
  lemma BrandIdBeatsConvention(plural: Name -> Name)
    ensures IdBase("brand_id") == Some("brand")
    ensures ColumnRule("brand_id", plural) == Some(RestaurantsId)
  {
    IdBaseOfSuffix("brand");
    assert "brand" + "_id" == "brand_id";
  }

  predicate Declares(d: DeclaredFk, t: Name, c: Name)
  {
    d.table == t && d.column == c
  }

  function TargetOf(d: DeclaredFk): FkTarget
  {
    FkTarget(d.referencedTable, d.referencedColumn)
  }

  /** The declared target of (t, c) that the seeding loop leaves behind: the
      last catalog row for that pair, since later rows overwrite earlier. */
  function LastDeclared(ds: seq<DeclaredFk>, t: Name, c: Name): (r: Option<FkTarget>)
    ensures r.None? <==> forall i :: 0 <= i < |ds| ==> !Declares(ds[i], t, c)
    ensures r.Some? ==> exists i :: 0 <= i < |ds| && Declares(ds[i], t, c) && r.value == TargetOf(ds[i])
                                    && forall j :: i < j < |ds| ==> !Declares(ds[j], t, c)
  {
    if |ds| == 0 then None
    else if Declares(ds[|ds| - 1], t, c) then Some(TargetOf(ds[|ds| - 1]))
    else
      var r := LastDeclared(ds[..|ds| - 1], t, c);
      assert forall i :: 0 <= i < |ds| - 1 ==> ds[..|ds| - 1][i] == ds[i];
      r
  }

  /** The entry for (t, c) after the declared constraints are written over
      the map `fk0`. */
  function Seeded(fk0: ForeignKeyMap, ds: seq<DeclaredFk>, t: Name, c: Name): Option<FkTarget>
  {
    if LastDeclared(ds, t, c).Some? then LastDeclared(ds, t, c) else Lookup(fk0, t, c)
  }

  /** The entry for (t, c) once `loadForeignKeys` has run on the map `fk0`:
      a seeded entry is kept; otherwise a listed column of a listed table gets
      its naming rule, if any. */
  function Resolved(fk0: ForeignKeyMap, db: Database, plural: Name -> Name, t: Name, c: Name): Option<FkTarget>
  {
    var s := Seeded(fk0, db.declared, t, c);
    if s.Some? then s
    else if t in db.tables && c in ColumnNames(db, t) then ColumnRule(c, plural)
    else None
  }

  /** The rule precedence of the resolver, starting from an empty map. */
  lemma RulePrecedence(db: Database, plural: Name -> Name, t: Name, c: Name)
    ensures LastDeclared(db.declared, t, c).Some? ==> Resolved(map[], db, plural, t, c) == LastDeclared(db.declared, t, c)
    ensures (forall i :: 0 <= i < |db.declared| ==> !Declares(db.declared[i], t, c)) ==>
      Resolved(map[], db, plural, t, c) ==
        if t !in db.tables || c !in ColumnNames(db, t) then None
        else if c in AuditColumns then Some(UsersId)
        else if c == "brand_id" then Some(RestaurantsId)
        else if IdBase(c).Some? then Some(FkTarget(plural(IdBase(c).value), "id"))
        else None
  {
  }

  /** A pair that already has an entry is never overwritten by a naming rule;
      only a declared constraint replaces it. */
  lemma ExistingEntryKept(fk0: ForeignKeyMap, db: Database, plural: Name -> Name, t: Name, c: Name)
    requires Lookup(fk0, t, c).Some?
    requires forall i :: 0 <= i < |db.declared| ==> !Declares(db.declared[i], t, c)
    ensures Resolved(fk0, db, plural, t, c) == Lookup(fk0, t, c)
  {
  }
}

=== FILE: migrate_mongo.dfy ===
/** The migration command: its two accumulators (the foreign-key map and
    the per-table identity maps), the document store it writes, and the
    four steps it runs in order. */
module MigrateMongo {
  import opened Schema
  import opened DocumentStore
  import opened ForeignKeys
  import opened TableMigrator
  import opened ReferenceRemapper

  /** The debug file: both accumulators as they stand after the copy pass. */
  datatype Snapshot = Snapshot(tableIdMaps: map<Name, IdMap>, foreignKeys: ForeignKeyMap)

  /** Identity maps point at identifiers minted before `bound`. */
  predicate IdMapsValid(maps: map<Name, IdMap>, bound: nat)
  {
    forall t :: t in maps ==> forall k :: k in maps[t] ==> maps[t][k] < bound
  }

  /** The foreign-key map once the naming rules have run over the tables
      `done`, starting from the seeded map. */
  function PartlyResolved(seeded: ForeignKeyMap, db: Database, plural: Name -> Name, done: seq<Name>, t: Name, c: Name)
    : Option<FkTarget>
  {
    if Lookup(seeded, t, c).Some? then Lookup(seeded, t, c)
    else if t in done && c in ColumnNames(db, t) then ColumnRule(c, plural)
    else None
  }

  /** Recording the identity map of a freshly migrated table keeps the
      identity maps valid. */
  lemma RecordIdMapValid(maps: map<Name, IdMap>, table: Name, rows: seq<Row>, pk: Name, start: nat, bound: nat)
    requires IdMapsValid(maps, start) && start + |rows| <= bound
    ensures IdMapsValid(maps[table := IdMapOf(rows, pk, start)], bound)
  {
    IdMapRange(rows, pk, start);
  }

  /** Remapping a document whose ObjectIds were all minted before `bound`,
      with identity maps valid for `bound`, leaves only such ObjectIds: a
      rewritten reference points at an identifier the copy pass minted. */
  lemma RemapKeepsIdsMinted(doc: Doc, fks: map<Name, FkTarget>, maps: map<Name, IdMap>, bound: nat)
    requires IdMapsValid(maps, bound)
    requires forall f :: f in doc && doc[f].Oid? ==> doc[f].id < bound
    ensures forall f :: f in RemapDoc(doc, fks, maps) && RemapDoc(doc, fks, maps)[f].Oid? ==> RemapDoc(doc, fks, maps)[f].id < bound
  {
    var staged := StagedUpdates(doc, fks, maps);
    forall f | f in staged
      ensures staged[f].Oid? && staged[f].id < bound
    {
      assert Resolves(doc, f, fks[f], maps);
      assert doc[f] in maps[fks[f].referencedTable];
    }
  }

  /** The row loop of `migrateTable`: identifiers are minted in row order
      from `start` on; with a primary key, its value moves to `mysql_id` and
      is recorded in the identity map. */
  method MigrateRows(rows: seq<Row>, primaryKey: Option<Name>, start: nat) returns (docs: seq<Doc>, idMap: IdMap)
    ensures docs == MigratedDocs(rows, primaryKey, start)
    ensures HasPrimaryKey(primaryKey) ==> idMap == IdMapOf(rows, primaryKey.value, start)
  {
    var hasPrimaryKey := HasPrimaryKey(primaryKey);
    docs, idMap := [], map[];
    var i := 0;
    while i < |rows|
      invariant 0 <= i <= |rows|
      invariant docs == MigratedDocs(rows[..i], primaryKey, start)
      invariant hasPrimaryKey ==> idMap == IdMapOf(rows[..i], primaryKey.value, start)
    {
      var rowArray := rows[i];
      var newId := start + i;
      if hasPrimaryKey {
        var oldId := OldId(rowArray, primaryKey.value);
        idMap := idMap[oldId := newId];
        rowArray := rowArray["mysql_id" := oldId];
        rowArray := rowArray - {primaryKey.value};
      }
      rowArray := rowArray["_id" := Oid(newId)];
      MigratedDocsSnoc(rows, i, primaryKey, start);
      docs := docs + [rowArray];
      assert rows[..i + 1][..i] == rows[..i];
      i := i + 1;
    }
    assert rows[..i] == rows;
  }

  /** The number of rows of the first `n` tables of `ts`: the identifiers
      the copy pass mints for them. */
  function RowsBefore(db: Database, ts: seq<Name>, n: nat): nat
    requires n <= |ts|
  {
    if n == 0 then 0 else RowsBefore(db, ts, n - 1) + |RowsOf(db, ts[n - 1])|
  }

  /** The documents the copy pass writes for the `k`-th table: one per row,
      minted from the identifier after those of the tables before it. */
  function TableDocs(db: Database, ts: seq<Name>, k: nat, base: nat): seq<Doc>
    requires k < |ts|
  {
    MigratedDocs(RowsOf(db, ts[k]), PrimaryKey(db, ts[k]), base + RowsBefore(db, ts, k))
  }

  /** The target database after the copy pass over the first `n` tables of
      `ts`, the first identifier minted being `base`. */
  function CopyPass(db: Database, s0: Store, ts: seq<Name>, n: nat, base: nat): Store
    requires n <= |ts|
  {
    if n == 0 then s0
    else
      var prev := CopyPass(db, s0, ts, n - 1, base);
      var t := ts[n - 1];
      if |RowsOf(db, t)| > 0
      then InsertMany(prev, t, TableDocs(db, ts, n - 1, base))
      else prev
  }

  /** The identity maps after the copy pass over the first `n` tables. */
  function CopyIdMaps(db: Database, m0: map<Name, IdMap>, ts: seq<Name>, n: nat, base: nat): map<Name, IdMap>
    requires n <= |ts|
  {
    if n == 0 then m0
    else
      var prev := CopyIdMaps(db, m0, ts, n - 1, base);
      var t := ts[n - 1];
      if HasPrimaryKey(PrimaryKey(db, t))
      then prev[t := IdMapOf(RowsOf(db, t), PrimaryKey(db, t).value, base + RowsBefore(db, ts, n - 1))]
      else prev
  }

  /** The target database after the remap pass over the first `n` tables,
      each rewritten by its cursor loop (in full unless it throws). */
  function RemapPass(s: Store, ts: seq<Name>, n: nat, fk: ForeignKeyMap, maps: map<Name, IdMap>): Store
    requires n <= |ts|
  {
    if n == 0 then s
    else
      var prev := RemapPass(s, ts, n - 1, fk, maps);
      var t := ts[n - 1];
      if t in fk && t in prev then prev[t := PartialRemap(prev[t], fk[t], maps)] else prev
  }

  /** The warnings of the remap pass over the first `n` tables, in order. */
  function PassWarnings(s: Store, ts: seq<Name>, n: nat, fk: ForeignKeyMap, maps: map<Name, IdMap>): multiset<Warning>
    requires n <= |ts|
  {
    if n == 0 then multiset{}
    else
      var t := ts[n - 1];
      PassWarnings(s, ts, n - 1, fk, maps) +
        (if t in fk then CollMisses(t, Coll(RemapPass(s, ts, n - 1, fk, maps), t), fk[t], maps) else multiset{})
  }

  /** The `updateOne` calls of the remap pass over the first `n` tables, in
      order. */
  function PassCalls(s: Store, ts: seq<Name>, n: nat, fk: ForeignKeyMap, maps: map<Name, IdMap>): seq<UpdateCall>
    requires n <= |ts|
  {
    if n == 0 then []
    else
      var t := ts[n - 1];
      PassCalls(s, ts, n - 1, fk, maps) +
        (if t in fk then CollCalls(t, Coll(RemapPass(s, ts, n - 1, fk, maps), t), fk[t], maps) else [])
  }

  /** The cursor loop of the `k`-th table, run on the store the tables before
      it left, throws. */
  predicate TableThrows(s: Store, ts: seq<Name>, k: nat, fk: ForeignKeyMap, maps: map<Name, IdMap>)
    requires k < |ts|
  {
    ts[k] in fk && CollThrows(Coll(RemapPass(s, ts, k, fk, maps), ts[k]), fk[ts[k]], maps)
  }

  /** The first table from the `k`-th on whose remap throws, or `|ts|`. */
  function StopFrom(s: Store, ts: seq<Name>, k: nat, fk: ForeignKeyMap, maps: map<Name, IdMap>): (r: nat)
    requires k <= |ts|
    ensures k <= r <= |ts|
    decreases |ts| - k
  {
    if k == |ts| then |ts|
    else if TableThrows(s, ts, k, fk, maps) then k
    else StopFrom(s, ts, k + 1, fk, maps)
  }

  /** No table before the one that throws throws. */
  lemma {:induction false} StopFromIsFirst(s: Store, ts: seq<Name>, k: nat, fk: ForeignKeyMap, maps: map<Name, IdMap>)
    requires k <= |ts|
    ensures forall m :: k <= m < StopFrom(s, ts, k, fk, maps) ==> !TableThrows(s, ts, m, fk, maps)
    ensures StopFrom(s, ts, k, fk, maps) < |ts| ==> TableThrows(s, ts, StopFrom(s, ts, k, fk, maps), fk, maps)
    decreases |ts| - k
  {
    if k < |ts| && !TableThrows(s, ts, k, fk, maps) {
      StopFromIsFirst(s, ts, k + 1, fk, maps);
    }
  }

  /** The table whose remap ends the command, or `|ts|` when none does. */
  function PassStop(s: Store, ts: seq<Name>, fk: ForeignKeyMap, maps: map<Name, IdMap>): nat
  {
    StopFrom(s, ts, 0, fk, maps)
  }

  /** The number of tables the remap pass works on: all of them, or those up
      to and including the one that throws. */
  function PassEnd(s: Store, ts: seq<Name>, fk: ForeignKeyMap, maps: map<Name, IdMap>): (n: nat)
    ensures n <= |ts|
  {
    if PassStop(s, ts, fk, maps) < |ts| then PassStop(s, ts, fk, maps) + 1 else |ts|
  }

  /** The remap pass ends with the `i`-th table when it is the first that
      throws. */
  lemma PassEndAfter(s: Store, ts: seq<Name>, i: nat, fk: ForeignKeyMap, maps: map<Name, IdMap>)
    requires i < |ts| && PassStop(s, ts, fk, maps) == StopFrom(s, ts, i, fk, maps)
    requires TableThrows(s, ts, i, fk, maps)
    ensures PassStop(s, ts, fk, maps) == i && PassEnd(s, ts, fk, maps) == i + 1
  {
  }

  /** The remap pass works through every table when none throws. */
  lemma PassEndAll(s: Store, ts: seq<Name>, fk: ForeignKeyMap, maps: map<Name, IdMap>)
    requires PassStop(s, ts, fk, maps) == StopFrom(s, ts, |ts|, fk, maps)
    ensures PassStop(s, ts, fk, maps) == |ts| && PassEnd(s, ts, fk, maps) == |ts|
  {
  }

  /** One step of the remap loop: what `remapForeignKeys` did to the `i`-th
      table extends the pass by that table, and either the pass stops there
      or the search for the table that throws moves on. */
  lemma PassAdvance(s: Store, ts: seq<Name>, i: nat, fk: ForeignKeyMap, maps: map<Name, IdMap>,
                    thrown: bool, pending: set<Warning>, store: Store, store': Store,
                    l0: seq<UpdateCall>, log: seq<UpdateCall>, log': seq<UpdateCall>,
                    w0: multiset<Warning>, warnings: multiset<Warning>, warnings': multiset<Warning>)
    requires i < |ts| && PassStop(s, ts, fk, maps) == StopFrom(s, ts, i, fk, maps)
    requires store == RemapPass(s, ts, i, fk, maps)
    requires log == l0 + PassCalls(s, ts, i, fk, maps)
    requires warnings == w0 + PassWarnings(s, ts, i, fk, maps)
    requires thrown <==> ts[i] in fk && CollThrows(Coll(store, ts[i]), fk[ts[i]], maps)
    requires store' == if ts[i] in fk && ts[i] in store then store[ts[i] := PartialRemap(store[ts[i]], fk[ts[i]], maps)] else store
    requires log' == log + if ts[i] in fk then CollCalls(ts[i], Coll(store, ts[i]), fk[ts[i]], maps) else []
    requires warnings' == warnings +
      (if ts[i] in fk then CollMisses(ts[i], Coll(store, ts[i]), fk[ts[i]], maps) else multiset{}) + multiset(pending)
    requires ts[i] in fk ==> pending <= PendingMisses(ts[i], Coll(store, ts[i]), fk[ts[i]], maps)
    requires !thrown ==> pending == {}
    ensures store' == RemapPass(s, ts, i + 1, fk, maps)
    ensures log' == l0 + PassCalls(s, ts, i + 1, fk, maps)
    ensures warnings' == w0 + PassWarnings(s, ts, i + 1, fk, maps) + multiset(pending)
    ensures thrown ==> PassStop(s, ts, fk, maps) == i && PassEnd(s, ts, fk, maps) == i + 1
    ensures thrown ==> pending <= PendingPassMisses(s, ts, fk, maps)
    ensures !thrown ==> pending == {} && PassStop(s, ts, fk, maps) == StopFrom(s, ts, i + 1, fk, maps)
  {
    RemapPassStep(s, ts, i, fk, maps, store, store');
    PassCallsStep(s, ts, i, fk, maps, store, l0, log, log');
    PassWarningsStep(s, ts, i, fk, maps, store, w0, warnings, warnings', pending);
    if thrown {
      PassEndAfter(s, ts, i, fk, maps);
    }
  }

  /** The warnings the document that throws can raise before it throws. */
  function PendingPassMisses(s: Store, ts: seq<Name>, fk: ForeignKeyMap, maps: map<Name, IdMap>): set<Warning>
  {
    var m := PassStop(s, ts, fk, maps);
    if m < |ts| && ts[m] in fk then PendingMisses(ts[m], Coll(RemapPass(s, ts, m, fk, maps), ts[m]), fk[ts[m]], maps)
    else {}
  }

  /** Identifier ranges of different tables never overlap: every table's
      identifiers are minted after those of the tables before it. */
  lemma {:induction false} MintedRangesDisjoint(db: Database, ts: seq<Name>, j: nat, k: nat)
    requires j < k <= |ts|
    ensures RowsBefore(db, ts, j) + |RowsOf(db, ts[j])| <= RowsBefore(db, ts, k)
  {
    if k > j + 1 {
      MintedRangesDisjoint(db, ts, j, k - 1);
    }
  }

  /** The documents the copy pass writes for two different tables never
      share an identifier. */
  lemma TableDocIdsDisjoint(db: Database, ts: seq<Name>, base: nat, j: nat, k: nat, a: nat, b: nat)
    requires j < |ts| && k < |ts| && j != k
    requires a < |RowsOf(db, ts[j])| && b < |RowsOf(db, ts[k])|
    ensures a < |TableDocs(db, ts, j, base)| && b < |TableDocs(db, ts, k, base)|
    ensures IdOf(TableDocs(db, ts, j, base)[a]) != IdOf(TableDocs(db, ts, k, base)[b])
  {
    MigratedDocFields(RowsOf(db, ts[j]), PrimaryKey(db, ts[j]), base + RowsBefore(db, ts, j), a, "_id");
    MigratedDocFields(RowsOf(db, ts[k]), PrimaryKey(db, ts[k]), base + RowsBefore(db, ts, k), b, "_id");
    if j < k {
      MintedRangesDisjoint(db, ts, j, k);
    } else {
      MintedRangesDisjoint(db, ts, k, j);
    }
  }

  /** With distinct table names, the identity maps the copy pass records for
      two different tables share no identifier: an identifier that remaps a
      reference names a document of one table only. */
  lemma IdMapsDisjoint(db: Database, m0: map<Name, IdMap>, ts: seq<Name>, base: nat, j: nat, k: nat)
    requires UniqueAt(ts, j) && UniqueAt(ts, k) && j != k
    requires HasPrimaryKey(PrimaryKey(db, ts[j])) && HasPrimaryKey(PrimaryKey(db, ts[k]))
    ensures var maps := CopyIdMaps(db, m0, ts, |ts|, base);
      && ts[j] in maps && ts[k] in maps
      && forall x, y :: x in maps[ts[j]] && y in maps[ts[k]] ==> maps[ts[j]][x] != maps[ts[k]][y]
  {
    var maps := CopyIdMaps(db, m0, ts, |ts|, base);
    CopyIdMapsTable(db, m0, ts, |ts|, base, j);
    CopyIdMapsTable(db, m0, ts, |ts|, base, k);
    var rj, rk := RowsOf(db, ts[j]), RowsOf(db, ts[k]);
    var sj, sk := base + RowsBefore(db, ts, j), base + RowsBefore(db, ts, k);
    if j < k {
      MintedRangesDisjoint(db, ts, j, k);
      assert sj + |rj| <= sk;
    } else {
      MintedRangesDisjoint(db, ts, k, j);
      assert sk + |rk| <= sj;
    }
    IdMapsApart(maps[ts[j]], rj, PrimaryKey(db, ts[j]).value, sj, maps[ts[k]], rk, PrimaryKey(db, ts[k]).value, sk);
  }

  /** The documents the copy pass writes hold minted identifiers in `_id`
      only. */
  lemma TableDocsOidOnlyInId(db: Database, ts: seq<Name>, k: nat, base: nat)
    requires k < |ts| && SqlRows(RowsOf(db, ts[k]))
    ensures forall d :: 0 <= d < |TableDocs(db, ts, k, base)| ==> OidOnlyInId(TableDocs(db, ts, k, base)[d])
  {
    var rows := RowsOf(db, ts[k]);
    forall d | 0 <= d < |TableDocs(db, ts, k, base)| ensures OidOnlyInId(TableDocs(db, ts, k, base)[d]) {
      MigrateRowOidOnlyInId(rows[d], PrimaryKey(db, ts[k]), base + RowsBefore(db, ts, k) + d);
    }
  }

  /** After the copy pass, the collection of a listed table holds minted
      identifiers in `_id` only, if it did before. */
  lemma CopiedOidOnlyInId(db: Database, s0: Store, ts: seq<Name>, base: nat, k: nat)
    requires UniqueAt(ts, k) && SqlSource(db)
    requires forall d :: 0 <= d < |Coll(s0, ts[k])| ==> OidOnlyInId(Coll(s0, ts[k])[d])
    ensures forall d :: 0 <= d < |Coll(CopyPass(db, s0, ts, |ts|, base), ts[k])| ==>
              OidOnlyInId(Coll(CopyPass(db, s0, ts, |ts|, base), ts[k])[d])
  {
    CopyPassTable(db, s0, ts, |ts|, base, k);
    TableDocsOidOnlyInId(db, ts, k, base);
    AppendOidOnlyInId(Coll(s0, ts[k]), TableDocs(db, ts, k, base));
  }

  /** The cursor loop of the `k`-th table does not throw when its collection
      held minted identifiers in `_id` only before the copy pass and its
      `_id` column has no rule leading to a table with a map. */
  lemma TableNeverThrows(db: Database, s0: Store, ts: seq<Name>, base: nat, fk: ForeignKeyMap, maps: map<Name, IdMap>, k: nat)
    requires UniqueAt(ts, k) && SqlSource(db)
    requires ts[k] in fk && "_id" in fk[ts[k]] ==> fk[ts[k]]["_id"].referencedTable !in maps
    requires forall d :: 0 <= d < |Coll(s0, ts[k])| ==> OidOnlyInId(Coll(s0, ts[k])[d])
    ensures !TableThrows(CopyPass(db, s0, ts, |ts|, base), ts, k, fk, maps)
  {
    var copied := CopyPass(db, s0, ts, |ts|, base);
    assert forall j :: 0 <= j < k ==> ts[j] != ts[k];
    RemapPassKeeps(copied, ts, 0, k, fk, maps, ts[k]);
    CopiedOidOnlyInId(db, s0, ts, base, k);
    if ts[k] in fk {
      OidOnlyInIdNoThrow(Coll(copied, ts[k]), fk[ts[k]], maps);
    }
  }

  /** A run over a target whose listed collections hold minted identifiers
      in `_id` only (an empty target, say), with distinct table names and
      no column named `_id` whose rule leads to a table with a map, never
      aborts: the remap pass works
      through every table. A second run over the same target aborts
      instead, at the first remapped reference of a table with a map. */
  lemma FreshRunCompletes(db: Database, s0: Store, m0: map<Name, IdMap>, ts: seq<Name>, base: nat, fk: ForeignKeyMap)
    requires SqlSource(db)
    requires forall j :: 0 <= j < |ts| ==> UniqueAt(ts, j)
    requires forall t :: t in fk && "_id" in fk[t] ==> fk[t]["_id"].referencedTable !in CopyIdMaps(db, m0, ts, |ts|, base)
    requires forall j, d :: 0 <= j < |ts| && 0 <= d < |Coll(s0, ts[j])| ==> OidOnlyInId(Coll(s0, ts[j])[d])
    ensures PassStop(CopyPass(db, s0, ts, |ts|, base), ts, fk, CopyIdMaps(db, m0, ts, |ts|, base)) == |ts|
    ensures PassEnd(CopyPass(db, s0, ts, |ts|, base), ts, fk, CopyIdMaps(db, m0, ts, |ts|, base)) == |ts|
  {
    var copied := CopyPass(db, s0, ts, |ts|, base);
    var maps := CopyIdMaps(db, m0, ts, |ts|, base);
    StopFromIsFirst(copied, ts, 0, fk, maps);
    var m := PassStop(copied, ts, fk, maps);
    if m < |ts| {
      TableNeverThrows(db, s0, ts, base, fk, maps, m);
    }
  }

  /** With distinct table names, the copy pass appends to the collection of
      the `k`-th table exactly the documents of its own rows, minted from
      that table's own start. */
  lemma CopyPassTable(db: Database, s0: Store, ts: seq<Name>, n: nat, base: nat, k: nat)
    requires UniqueAt(ts, k) && k < n <= |ts|
    ensures Coll(CopyPass(db, s0, ts, n, base), ts[k]) == Coll(s0, ts[k]) + TableDocs(db, ts, k, base)
  {
    CopyPassEarlier(db, s0, ts, base, k);
    CopyPassStep(db, s0, ts, k, base);
    CopyPassLater(db, s0, ts, n, base, k);
  }

  /** The tables copied before the `k`-th one leave its collection alone. */
  lemma CopyPassEarlier(db: Database, s0: Store, ts: seq<Name>, base: nat, k: nat)
    requires UniqueAt(ts, k)
    ensures Coll(CopyPass(db, s0, ts, k, base), ts[k]) == Coll(s0, ts[k])
  {
    assert forall j :: 0 <= j < k ==> ts[j] != ts[k];
    CopyPassKeeps(db, s0, ts, 0, k, base, ts[k]);
  }

  /** The tables copied after the `k`-th one leave its collection alone. */
  lemma CopyPassLater(db: Database, s0: Store, ts: seq<Name>, n: nat, base: nat, k: nat)
    requires UniqueAt(ts, k) && k < n <= |ts|
    ensures Coll(CopyPass(db, s0, ts, n, base), ts[k]) == Coll(CopyPass(db, s0, ts, k + 1, base), ts[k])
  {
    assert forall j :: k + 1 <= j < n ==> ts[j] != ts[k];
    CopyPassKeeps(db, s0, ts, k + 1, n, base, ts[k]);
  }

  /** Copying the `k`-th table appends its documents to its own collection. */
  lemma CopyPassStep(db: Database, s0: Store, ts: seq<Name>, k: nat, base: nat)
    requires k < |ts|
    ensures Coll(CopyPass(db, s0, ts, k + 1, base), ts[k]) ==
      Coll(CopyPass(db, s0, ts, k, base), ts[k]) + TableDocs(db, ts, k, base)
  {
    var prev := CopyPass(db, s0, ts, k, base);
    if |RowsOf(db, ts[k])| == 0 {
      assert Coll(prev, ts[k]) + TableDocs(db, ts, k, base) == Coll(prev, ts[k]);
    }
  }

  /** Copying the `k`-th table changes no other collection. */
  lemma CopyPassStepOther(db: Database, s0: Store, ts: seq<Name>, k: nat, base: nat, t: Name)
    requires k < |ts| && t != ts[k]
    ensures Coll(CopyPass(db, s0, ts, k + 1, base), t) == Coll(CopyPass(db, s0, ts, k, base), t)
  {
  }

  /** Copying the tables `m` to `n` leaves alone the collection of a table
      not among them. */
  lemma {:induction false} CopyPassKeeps(db: Database, s0: Store, ts: seq<Name>, m: nat, n: nat, base: nat, t: Name)
    requires m <= n <= |ts|
    requires forall j :: m <= j < n ==> ts[j] != t
    ensures Coll(CopyPass(db, s0, ts, n, base), t) == Coll(CopyPass(db, s0, ts, m, base), t)
  {
    if m < n {
      CopyPassKeeps(db, s0, ts, m, n - 1, base, t);
      CopyPassStepOther(db, s0, ts, n - 1, base, t);
    }
  }

  /** With distinct table names, the identity map recorded for the `k`-th
      table, when it has a primary key, is the map of its own rows. */
  lemma CopyIdMapsTable(db: Database, m0: map<Name, IdMap>, ts: seq<Name>, n: nat, base: nat, k: nat)
    requires UniqueAt(ts, k) && k < n <= |ts| && HasPrimaryKey(PrimaryKey(db, ts[k]))
    ensures ts[k] in CopyIdMaps(db, m0, ts, n, base)
    ensures CopyIdMaps(db, m0, ts, n, base)[ts[k]] ==
      IdMapOf(RowsOf(db, ts[k]), PrimaryKey(db, ts[k]).value, base + RowsBefore(db, ts, k))
  {
    assert ts[k] in CopyIdMaps(db, m0, ts, k + 1, base);
    CopyIdMapsKeeps(db, m0, ts, k + 1, n, base, ts[k]);
  }

  /** The copy pass over the tables `m` to `n` leaves alone the identity map
      entry of a table not among them. */
  lemma {:induction false} CopyIdMapsKeeps(db: Database, m0: map<Name, IdMap>, ts: seq<Name>, m: nat, n: nat, base: nat, t: Name)
    requires m <= n <= |ts|
    requires forall j :: m <= j < n ==> ts[j] != t
    ensures t in CopyIdMaps(db, m0, ts, n, base) <==> t in CopyIdMaps(db, m0, ts, m, base)
    ensures t in CopyIdMaps(db, m0, ts, m, base) ==>
      CopyIdMaps(db, m0, ts, n, base)[t] == CopyIdMaps(db, m0, ts, m, base)[t]
  {
    if m < n {
      CopyIdMapsKeeps(db, m0, ts, m, n - 1, base, t);
    }
  }

  /** The copy pass records no identity map for a table that has no primary
      key. */
  lemma {:induction false} CopyIdMapsNoKey(db: Database, m0: map<Name, IdMap>, ts: seq<Name>, n: nat, base: nat, t: Name)
    requires n <= |ts| && !HasPrimaryKey(PrimaryKey(db, t))
    ensures t in CopyIdMaps(db, m0, ts, n, base) <==> t in m0
    ensures t in m0 ==> CopyIdMaps(db, m0, ts, n, base)[t] == m0[t]
  {
    if n > 0 {
      CopyIdMapsNoKey(db, m0, ts, n - 1, base, t);
    }
  }

  /** The remap pass never adds or drops a collection. */
  lemma {:induction false} RemapPassKeys(s: Store, ts: seq<Name>, n: nat, fk: ForeignKeyMap, maps: map<Name, IdMap>)
    requires n <= |ts|
    ensures RemapPass(s, ts, n, fk, maps).Keys == s.Keys
  {
    if n > 0 {
      RemapPassKeys(s, ts, n - 1, fk, maps);
    }
  }

  /** With distinct table names, the remap pass rewrites the collection of
      the `k`-th table exactly once, from its copied contents, when the
      table has foreign-key entries, and leaves it alone otherwise. */
  lemma RemapPassTable(s: Store, ts: seq<Name>, n: nat, fk: ForeignKeyMap, maps: map<Name, IdMap>, k: nat)
    requires UniqueAt(ts, k) && k < n <= |ts|
    ensures Coll(RemapPass(s, ts, n, fk, maps), ts[k]) ==
      if ts[k] in fk then PartialRemap(Coll(s, ts[k]), fk[ts[k]], maps) else Coll(s, ts[k])
  {
    assert forall j :: 0 <= j < k ==> ts[j] != ts[k];
    RemapPassKeeps(s, ts, 0, k, fk, maps, ts[k]);
    RemapPassStepAt(s, ts, k, fk, maps);
    assert forall j :: k + 1 <= j < n ==> ts[j] != ts[k];
    RemapPassKeeps(s, ts, k + 1, n, fk, maps, ts[k]);
  }

  /** The remap pass leaves alone the collection of a table it does not
      list. */
  lemma RemapPassOther(s: Store, ts: seq<Name>, n: nat, fk: ForeignKeyMap, maps: map<Name, IdMap>, t: Name)
    requires n <= |ts| && t !in ts[..n]
    ensures Coll(RemapPass(s, ts, n, fk, maps), t) == Coll(s, t)
  {
    assert forall j :: 0 <= j < n ==> ts[..n][j] == ts[j];
    RemapPassKeeps(s, ts, 0, n, fk, maps, t);
  }

  /** Remapping the `k`-th table rewrites its collection when it has
      foreign-key entries; an absent collection stays empty. */
  lemma RemapPassStepAt(s: Store, ts: seq<Name>, k: nat, fk: ForeignKeyMap, maps: map<Name, IdMap>)
    requires k < |ts|
    ensures Coll(RemapPass(s, ts, k + 1, fk, maps), ts[k]) ==
      if ts[k] in fk then PartialRemap(Coll(RemapPass(s, ts, k, fk, maps), ts[k]), fk[ts[k]], maps)
      else Coll(RemapPass(s, ts, k, fk, maps), ts[k])
  {
    if ts[k] in fk && ts[k] !in RemapPass(s, ts, k, fk, maps) {
      assert PartialRemap([], fk[ts[k]], maps) == [];
    }
  }

  /** A table before the one whose remap throws is remapped in full. */
  lemma RemapPassReaches(s: Store, ts: seq<Name>, fk: ForeignKeyMap, maps: map<Name, IdMap>, j: nat)
    requires UniqueAt(ts, j) && j < PassStop(s, ts, fk, maps)
    ensures j < PassEnd(s, ts, fk, maps)
    ensures Coll(RemapPass(s, ts, PassEnd(s, ts, fk, maps), fk, maps), ts[j]) ==
      if ts[j] in fk then RemapAll(Coll(s, ts[j]), fk[ts[j]], maps) else Coll(s, ts[j])
  {
    StopFromIsFirst(s, ts, 0, fk, maps);
    assert !TableThrows(s, ts, j, fk, maps);
    assert forall l :: 0 <= l < j ==> ts[l] != ts[j];
    RemapPassKeeps(s, ts, 0, j, fk, maps, ts[j]);
    RemapPassTable(s, ts, PassEnd(s, ts, fk, maps), fk, maps, j);
  }

  /** Remapping the tables `m` to `n` leaves alone the collection of a table
      not among them. */
  lemma {:induction false} RemapPassKeeps(s: Store, ts: seq<Name>, m: nat, n: nat, fk: ForeignKeyMap, maps: map<Name, IdMap>, t: Name)
    requires m <= n <= |ts|
    requires forall j :: m <= j < n ==> ts[j] != t
    ensures Coll(RemapPass(s, ts, n, fk, maps), t) == Coll(RemapPass(s, ts, m, fk, maps), t)
  {
    if m < n {
      RemapPassKeeps(s, ts, m, n - 1, fk, maps, t);
    }
  }

  /** A table's documents appended to a collection that held `before`: the
      document for row `i` carries the `i`-th identifier of the table's
      range. */
  lemma AppendedDocId(db: Database, ts: seq<Name>, base: nat, coll: seq<Doc>, before: seq<Doc>, j: nat, i: nat)
    requires j < |ts| && i < |RowsOf(db, ts[j])| && coll == before + TableDocs(db, ts, j, base)
    ensures |before| + i < |coll|
    ensures IdOf(coll[|before| + i]) == Oid(base + RowsBefore(db, ts, j) + i)
  {
    var rows, pk, start := RowsOf(db, ts[j]), PrimaryKey(db, ts[j]), base + RowsBefore(db, ts, j);
    MigratedDocFields(rows, pk, start, i, "_id");
    assert coll[|before| + i] == MigratedDocs(rows, pk, start)[i];
  }

  /** ... and keeps the row's value of any column other than `_id` and, in a
      table with a primary key, that key and `mysql_id`. */
  lemma AppendedDocField(db: Database, ts: seq<Name>, base: nat, coll: seq<Doc>, before: seq<Doc>, j: nat, i: nat, c: Name)
    requires j < |ts| && i < |RowsOf(db, ts[j])| && coll == before + TableDocs(db, ts, j, base)
    requires c in RowsOf(db, ts[j])[i] && c != "_id"
    requires !(HasPrimaryKey(PrimaryKey(db, ts[j])) && (c == "mysql_id" || c == PrimaryKey(db, ts[j]).value))
    ensures |before| + i < |coll|
    ensures c in coll[|before| + i] && coll[|before| + i][c] == RowsOf(db, ts[j])[i][c]
  {
    var rows, pk, start := RowsOf(db, ts[j]), PrimaryKey(db, ts[j]), base + RowsBefore(db, ts, j);
    MigratedDocFields(rows, pk, start, i, c);
    assert coll[|before| + i] == MigratedDocs(rows, pk, start)[i];
  }

  /** Row `i` of the `j`-th table refers, through its column `c` that the
      foreign-key map points at the `k`-th table, to row `q` of that table,
      whose primary key values are distinct. The column is one the copy
      keeps: not `_id` and, when the row's table has a primary key, neither
      that key nor `mysql_id`. Its value is a relational one. */
  predicate ReferencesRow(db: Database, ts: seq<Name>, fk: ForeignKeyMap, j: nat, i: nat, c: Name, k: nat, q: nat)
  {
    && j < |ts| && k < |ts| && i < |RowsOf(db, ts[j])| && q < |RowsOf(db, ts[k])|
    && ts[j] in fk && c in fk[ts[j]] && fk[ts[j]][c].referencedTable == ts[k]
    && HasPrimaryKey(PrimaryKey(db, ts[k])) && DistinctPks(RowsOf(db, ts[k]), PrimaryKey(db, ts[k]).value)
    && c != "_id" && !(HasPrimaryKey(PrimaryKey(db, ts[j])) && (c == "mysql_id" || c == PrimaryKey(db, ts[j]).value))
    && c in RowsOf(db, ts[j])[i] && RowsOf(db, ts[j])[i][c] != Null && !RowsOf(db, ts[j])[i][c].Oid?
    && RowsOf(db, ts[j])[i][c] == OldId(RowsOf(db, ts[k])[q], PrimaryKey(db, ts[k]).value)
  }

  /** The two passes joined: if the copy pass appended the documents of the
      `j`-th table to `before` and those of the `k`-th table to `beforeRef`,
      recorded the identity map of the `k`-th table, and the remap pass
      rewrote the collection of the `j`-th table against those maps, then a
      reference of row `i` of the `j`-th table to row `q` of the `k`-th
      table holds the identifier of that row's document. */
  lemma ReferenceAcrossPasses(db: Database, ts: seq<Name>, base: nat, fk: ForeignKeyMap, maps: map<Name, IdMap>,
                              before: seq<Doc>, copied: seq<Doc>, remapped: seq<Doc>, beforeRef: seq<Doc>, copiedRef: seq<Doc>,
                              j: nat, i: nat, c: Name, k: nat, q: nat)
    requires ReferencesRow(db, ts, fk, j, i, c, k, q)
    requires copied == before + TableDocs(db, ts, j, base)
    requires copiedRef == beforeRef + TableDocs(db, ts, k, base)
    requires ts[k] in maps
    requires maps[ts[k]] == IdMapOf(RowsOf(db, ts[k]), PrimaryKey(db, ts[k]).value, base + RowsBefore(db, ts, k))
    requires remapped == RemapAll(copied, fk[ts[j]], maps)
    ensures |before| + i < |remapped| && |beforeRef| + q < |copiedRef|
    ensures c in remapped[|before| + i]
    ensures remapped[|before| + i][c] == IdOf(copiedRef[|beforeRef| + q])
  {
    CopiedReferenceResolves(db, ts, base, fk, maps, before, copied, j, i, c, k, q);
    AppendedDocId(db, ts, base, copiedRef, beforeRef, k, q);
    RemapAllField(copied, fk[ts[j]], maps, |before| + i, c);
  }

  /** Before the remap pass, the copied document of row `i` of the `j`-th
      table still holds the old key value in column `c`, and the identity map
      of the `k`-th table resolves it to the identifier minted for row `q`. */
  lemma CopiedReferenceResolves(db: Database, ts: seq<Name>, base: nat, fk: ForeignKeyMap, maps: map<Name, IdMap>,
                                before: seq<Doc>, copied: seq<Doc>, j: nat, i: nat, c: Name, k: nat, q: nat)
    requires ReferencesRow(db, ts, fk, j, i, c, k, q)
    requires copied == before + TableDocs(db, ts, j, base)
    requires ts[k] in maps
    requires maps[ts[k]] == IdMapOf(RowsOf(db, ts[k]), PrimaryKey(db, ts[k]).value, base + RowsBefore(db, ts, k))
    ensures |before| + i < |copied|
    ensures Resolves(copied[|before| + i], c, fk[ts[j]][c], maps)
    ensures NewIdFor(copied[|before| + i], c, fk[ts[j]][c], maps) == Oid(base + RowsBefore(db, ts, k) + q)
  {
    var r := ts[k];
    AppendedDocField(db, ts, base, copied, before, j, i, c);
    IdentityMapEntry(RowsOf(db, r), PrimaryKey(db, r).value, base + RowsBefore(db, ts, k), q);
  }

  /** The barrier of `handle`: after the copy pass over all tables and the
      remap pass against the identity maps it built, a row's reference to a
      row of any listed table, earlier or later in the list, holds the
      identifier of that row's document, provided the remap pass got past
      the referring table without throwing. */
  lemma CrossTableReference(db: Database, s0: Store, m0: map<Name, IdMap>, ts: seq<Name>, base: nat, fk: ForeignKeyMap,
                            j: nat, i: nat, c: Name, k: nat, q: nat)
    requires UniqueAt(ts, j) && UniqueAt(ts, k) && ReferencesRow(db, ts, fk, j, i, c, k, q)
    requires j < PassStop(CopyPass(db, s0, ts, |ts|, base), ts, fk, CopyIdMaps(db, m0, ts, |ts|, base))
    ensures var copied := CopyPass(db, s0, ts, |ts|, base);
            var maps := CopyIdMaps(db, m0, ts, |ts|, base);
            var remapped := Coll(RemapPass(copied, ts, PassEnd(copied, ts, fk, maps), fk, maps), ts[j]);
            && |Coll(s0, ts[j])| + i < |remapped|
            && |Coll(s0, ts[k])| + q < |Coll(copied, ts[k])|
            && c in remapped[|Coll(s0, ts[j])| + i]
            && remapped[|Coll(s0, ts[j])| + i][c] == IdOf(Coll(copied, ts[k])[|Coll(s0, ts[k])| + q])
  {
    var copied := CopyPass(db, s0, ts, |ts|, base);
    var maps := CopyIdMaps(db, m0, ts, |ts|, base);
    CopyPassTable(db, s0, ts, |ts|, base, j);
    CopyPassTable(db, s0, ts, |ts|, base, k);
    CopyIdMapsTable(db, m0, ts, |ts|, base, k);
    RemapPassReaches(copied, ts, fk, maps, j);
    ReferenceInStores(db, ts, base, fk, s0, copied, maps, RemapPass(copied, ts, PassEnd(copied, ts, fk, maps), fk, maps),
                      j, i, c, k, q);
  }

  /** The same join stated on whole stores: `copied` after the copy pass,
      `final` after the remap pass, the collections addressed by table name. */
  lemma ReferenceInStores(db: Database, ts: seq<Name>, base: nat, fk: ForeignKeyMap, s0: Store, copied: Store,
                          maps: map<Name, IdMap>, final: Store, j: nat, i: nat, c: Name, k: nat, q: nat)
    requires ReferencesRow(db, ts, fk, j, i, c, k, q)
    requires Coll(copied, ts[j]) == Coll(s0, ts[j]) + TableDocs(db, ts, j, base)
    requires Coll(copied, ts[k]) == Coll(s0, ts[k]) + TableDocs(db, ts, k, base)
    requires ts[k] in maps
    requires maps[ts[k]] == IdMapOf(RowsOf(db, ts[k]), PrimaryKey(db, ts[k]).value, base + RowsBefore(db, ts, k))
    requires Coll(final, ts[j]) == RemapAll(Coll(copied, ts[j]), fk[ts[j]], maps)
    ensures |Coll(s0, ts[j])| + i < |Coll(final, ts[j])|
    ensures |Coll(s0, ts[k])| + q < |Coll(copied, ts[k])|
    ensures c in Coll(final, ts[j])[|Coll(s0, ts[j])| + i]
    ensures Coll(final, ts[j])[|Coll(s0, ts[j])| + i][c] == IdOf(Coll(copied, ts[k])[|Coll(s0, ts[k])| + q])
  {
    ReferenceAcrossPasses(db, ts, base, fk, maps, Coll(s0, ts[j]), Coll(copied, ts[j]), Coll(final, ts[j]),
                          Coll(s0, ts[k]), Coll(copied, ts[k]), j, i, c, k, q);
  }

  /** One more table of the copy pass: the store and the identity maps
      after `migrateTable` on table `i`, whose identifiers start at `start`. */
  lemma CopyPassNext(db: Database, s0: Store, m0: map<Name, IdMap>, ts: seq<Name>, i: nat, base: nat, start: nat,
                     store: Store, store': Store, maps: map<Name, IdMap>, maps': map<Name, IdMap>)
    requires i < |ts| && start == base + RowsBefore(db, ts, i)
    requires store == CopyPass(db, s0, ts, i, base) && maps == CopyIdMaps(db, m0, ts, i, base)
    requires store' == if |RowsOf(db, ts[i])| > 0
                       then InsertMany(store, ts[i], MigratedDocs(RowsOf(db, ts[i]), PrimaryKey(db, ts[i]), start))
                       else store
    requires maps' == if HasPrimaryKey(PrimaryKey(db, ts[i]))
                      then maps[ts[i] := IdMapOf(RowsOf(db, ts[i]), PrimaryKey(db, ts[i]).value, start)]
                      else maps
    ensures store' == CopyPass(db, s0, ts, i + 1, base)
    ensures maps' == CopyIdMaps(db, m0, ts, i + 1, base)
    ensures start + |RowsOf(db, ts[i])| == base + RowsBefore(db, ts, i + 1)
  {
  }

  /** One more table of the remap pass: the store after `remapForeignKeys`
      on table `i`. */
  lemma RemapPassStep(s: Store, ts: seq<Name>, i: nat, fk: ForeignKeyMap, maps: map<Name, IdMap>, store: Store, store': Store)
    requires i < |ts|
    requires store == RemapPass(s, ts, i, fk, maps)
    requires store' == if ts[i] in fk && ts[i] in store then store[ts[i] := PartialRemap(store[ts[i]], fk[ts[i]], maps)] else store
    ensures store' == RemapPass(s, ts, i + 1, fk, maps)
  {
  }

  /** The warnings after `remapForeignKeys` on table `i`: those of the
      documents it finished, then the `pending` ones of a document that
      threw. */
  lemma PassWarningsStep(s: Store, ts: seq<Name>, i: nat, fk: ForeignKeyMap, maps: map<Name, IdMap>, store: Store,
                         w0: multiset<Warning>, warnings: multiset<Warning>, warnings': multiset<Warning>, pending: set<Warning>)
    requires i < |ts| && store == RemapPass(s, ts, i, fk, maps)
    requires warnings == w0 + PassWarnings(s, ts, i, fk, maps)
    requires warnings' == warnings +
      (if ts[i] in fk then CollMisses(ts[i], Coll(store, ts[i]), fk[ts[i]], maps) else multiset{}) + multiset(pending)
    ensures warnings' == w0 + PassWarnings(s, ts, i + 1, fk, maps) + multiset(pending)
  {
  }

  /** The `updateOne` log after `remapForeignKeys` on table `i`. */
  lemma PassCallsStep(s: Store, ts: seq<Name>, i: nat, fk: ForeignKeyMap, maps: map<Name, IdMap>, store: Store,
                      l0: seq<UpdateCall>, log: seq<UpdateCall>, log': seq<UpdateCall>)
    requires i < |ts| && store == RemapPass(s, ts, i, fk, maps)
    requires log == l0 + PassCalls(s, ts, i, fk, maps)
    requires log' == log +
      if ts[i] in fk then CollCalls(ts[i], Coll(store, ts[i]), fk[ts[i]], maps) else []
    ensures log' == l0 + PassCalls(s, ts, i + 1, fk, maps)
  {
    var calls := if ts[i] in fk then CollCalls(ts[i], Coll(store, ts[i]), fk[ts[i]], maps) else [];
    assert PassCalls(s, ts, i + 1, fk, maps) == PassCalls(s, ts, i, fk, maps) + calls;
    AppendAssociative(l0, PassCalls(s, ts, i, fk, maps), calls);
  }

  lemma AppendAssociative<T>(a: seq<T>, b: seq<T>, c: seq<T>)
    ensures (a + b) + c == a + (b + c)
  {
  }

  /** The first loop of `loadForeignKeys`: every declared constraint is
      written into the map, a later row for the same column overwriting an
      earlier one. */
  method SeedDeclared(fk: ForeignKeyMap, declared: seq<DeclaredFk>) returns (r: ForeignKeyMap)
    ensures NoEmptyTables(fk) ==> NoEmptyTables(r)
    ensures forall t, c :: Lookup(r, t, c) == Seeded(fk, declared, t, c)
  {
    r := fk;
    var i := 0;
    while i < |declared|
      invariant 0 <= i <= |declared|
      invariant NoEmptyTables(fk) ==> NoEmptyTables(r)
      invariant forall t, c :: Lookup(r, t, c) == Seeded(fk, declared[..i], t, c)
    {
      var d := declared[i];
      r := Put(r, d.table, d.column, FkTarget(d.referencedTable, d.referencedColumn));
      assert declared[..i + 1][..i] == declared[..i];
      i := i + 1;
    }
    assert declared[..i] == declared;
  }

  /** The column loop of `loadForeignKeys` for one table: every column
      without an entry gets the naming rule that matches it, if any; entries
      already present, declared or not, are kept. */
  method ApplyNamingRules(fk: ForeignKeyMap, table: Name, columns: seq<Name>, plural: Name -> Name)
    returns (r: ForeignKeyMap)
    ensures NoEmptyTables(fk) ==> NoEmptyTables(r)
    ensures forall t, c :: Lookup(r, t, c) ==
                if t == table && c in columns && Lookup(fk, t, c).None? then ColumnRule(c, plural)
                else Lookup(fk, t, c)
  {
    r := fk;
    var j := 0;
    while j < |columns|
      invariant 0 <= j <= |columns|
      invariant NoEmptyTables(fk) ==> NoEmptyTables(r)
      invariant forall t, c :: Lookup(r, t, c) ==
                  if t == table && c in columns[..j] && Lookup(fk, t, c).None? then ColumnRule(c, plural)
                  else Lookup(fk, t, c)
    {
      var column := columns[j];
      if !(table in r && column in r[table]) {
        var rule := ColumnRule(column, plural);
        if rule.Some? {
          r := Put(r, table, column, rule.value);
        }
      }
      assert columns[..j + 1] == columns[..j] + [column];
      j := j + 1;
    }
    assert columns[..j] == columns;
  }

  class MigrateMongoDB {
    var foreignKeys: ForeignKeyMap
    var tableIdMaps: map<Name, IdMap>
    /** The target database, one collection per table. */
    var store: Store
    /** The next identifier `new ObjectId()` mints. */
    var nextId: nat
    var warnings: multiset<Warning>
    var updateLog: seq<UpdateCall>
    var debugFile: Option<Snapshot>

    ghost predicate Valid()
      reads this
    {
      && NoEmptyTables(foreignKeys)
      && StoreValid(store, nextId)
      && IdMapsValid(tableIdMaps, nextId)
    }

    /** A fresh command over an existing target database whose identifiers
        were all minted before `firstId`. */
    constructor (existing: Store, firstId: nat)
      requires StoreValid(existing, firstId)
      ensures Valid()
      ensures foreignKeys == map[] && tableIdMaps == map[] && store == existing && nextId == firstId
      ensures warnings == multiset{} && updateLog == [] && debugFile == None
    {
      foreignKeys, tableIdMaps := map[], map[];
      store, nextId := existing, firstId;
      warnings, updateLog, debugFile := multiset{}, [], None;
    }

    /** `loadForeignKeys`: declared constraints first, then the naming rules
        for every listed column that has no entry yet. */
    method LoadForeignKeys(db: Database, plural: Name -> Name)
      requires Valid()
      modifies this`foreignKeys
      ensures Valid()
      ensures forall t, c :: Lookup(foreignKeys, t, c) == Resolved(old(foreignKeys), db, plural, t, c)
    {
      foreignKeys := SeedDeclared(foreignKeys, db.declared);
      ghost var seeded := foreignKeys;

      var tables := db.tables;
      var i := 0;
      while i < |tables|
        invariant 0 <= i <= |tables|
        invariant NoEmptyTables(foreignKeys)
        invariant forall t, c ::
                    Lookup(foreignKeys, t, c) == PartlyResolved(seeded, db, plural, tables[..i], t, c)
      {
        var table := tables[i];
        foreignKeys := ApplyNamingRules(foreignKeys, table, ColumnNames(db, table), plural);
        assert tables[..i + 1] == tables[..i] + [table];
        i := i + 1;
      }
      assert tables[..i] == tables;
    }

    /** `migrateTable`: one document per row with a freshly minted `_id`,
        the identity map when the table has a primary key, and one bulk
        insert when there is at least one row. */
    method MigrateTable(db: Database, table: Name)
      requires Valid() && SqlRows(RowsOf(db, table))
      modifies this`tableIdMaps, this`store, this`nextId
      ensures Valid()
      ensures nextId == old(nextId) + |RowsOf(db, table)|
      ensures store == if |RowsOf(db, table)| > 0
                       then InsertMany(old(store), table, MigratedDocs(RowsOf(db, table), PrimaryKey(db, table), old(nextId)))
                       else old(store)
      ensures tableIdMaps == if HasPrimaryKey(PrimaryKey(db, table))
                             then old(tableIdMaps)[table := IdMapOf(RowsOf(db, table), PrimaryKey(db, table).value, old(nextId))]
                             else old(tableIdMaps)
    {
      var primaryKey := PrimaryKey(db, table);
      var rows := RowsOf(db, table);
      var start := nextId;
      var docs, idMap := MigrateRows(rows, primaryKey, start);
      nextId := start + |rows|;

      MigratedDocsFresh(rows, primaryKey, start);
      StoreValidMono(store, start, nextId);
      if HasPrimaryKey(primaryKey) {
        RecordIdMapValid(tableIdMaps, table, rows, primaryKey.value, start, nextId);
        tableIdMaps := tableIdMaps[table := idMap];
      }
      if |docs| > 0 {
        InsertFreshValid(store, table, docs, start, nextId);
        store := InsertMany(store, table, docs);
      }
    }

    /** `remapForeignKeys`: every document of the collection gets its
        resolved foreign-key fields rewritten by one `updateOne`; dangling
        references raise a warning and stay as they are. `thrown` says that
        a document threw, which ends the command with the updates made so
        far in place; `pending` holds the warnings it raised before. */
    method RemapForeignKeys(table: Name) returns (thrown: bool, ghost pending: set<Warning>)
      requires Valid()
      modifies this`store, this`warnings, this`updateLog
      ensures Valid()
      ensures thrown <==> table in foreignKeys && CollThrows(Coll(old(store), table), foreignKeys[table], tableIdMaps)
      ensures store == if table in foreignKeys && table in old(store)
                       then old(store)[table := PartialRemap(old(store)[table], foreignKeys[table], tableIdMaps)]
                       else old(store)
      ensures updateLog == old(updateLog) +
                if table in foreignKeys then CollCalls(table, Coll(old(store), table), foreignKeys[table], tableIdMaps)
                else []
      ensures warnings == old(warnings) +
                (if table in foreignKeys then CollMisses(table, Coll(old(store), table), foreignKeys[table], tableIdMaps)
                 else multiset{})
                + multiset(pending)
      ensures table in foreignKeys ==> pending <= PendingMisses(table, Coll(old(store), table), foreignKeys[table], tableIdMaps)
      ensures !thrown ==> pending == {}
    {
      thrown, pending := false, {};
      if table !in foreignKeys {
        return;
      }
      var cursor := Coll(store, table);
      var coll, misses, calls;
      coll, misses, calls, thrown, pending := RemapCollection(table, cursor, foreignKeys[table], tableIdMaps, nextId);
      if table in store {
        PartialRemapKeepsValid(cursor, foreignKeys[table], tableIdMaps, nextId);
        store := store[table := coll];
      }
      warnings := warnings + misses;
      updateLog := updateLog + calls;
    }

    /** The copy loop of `handle`: `migrateTable` for every table, in order. */
    method CopyTables(db: Database, tables: seq<Name>)
      requires Valid() && SqlSource(db)
      modifies this`tableIdMaps, this`store, this`nextId
      ensures Valid()
      ensures nextId == old(nextId) + RowsBefore(db, tables, |tables|)
      ensures store == CopyPass(db, old(store), tables, |tables|, old(nextId))
      ensures tableIdMaps == CopyIdMaps(db, old(tableIdMaps), tables, |tables|, old(nextId))
    {
      var i := 0;
      while i < |tables|
        invariant 0 <= i <= |tables|
        invariant Valid()
        invariant nextId == old(nextId) + RowsBefore(db, tables, i)
        invariant store == CopyPass(db, old(store), tables, i, old(nextId))
        invariant tableIdMaps == CopyIdMaps(db, old(tableIdMaps), tables, i, old(nextId))
      {
        ghost var store0, maps0, start := store, tableIdMaps, nextId;
        MigrateTable(db, tables[i]);
        CopyPassNext(db, old(store), old(tableIdMaps), tables, i, old(nextId), start, store0, store, maps0, tableIdMaps);
        i := i + 1;
      }
    }

    /** The remap loop of `handle`: `remapForeignKeys` for every table, in
        order, until one throws. */
    method RemapTables(tables: seq<Name>) returns (thrown: bool, ghost pending: set<Warning>)
      requires Valid()
      modifies this`store, this`warnings, this`updateLog
      ensures Valid()
      ensures thrown <==> PassStop(old(store), tables, foreignKeys, tableIdMaps) < |tables|
      ensures store == RemapPass(old(store), tables, PassEnd(old(store), tables, foreignKeys, tableIdMaps),
                                 foreignKeys, tableIdMaps)
      ensures updateLog == old(updateLog) + PassCalls(old(store), tables, PassEnd(old(store), tables, foreignKeys, tableIdMaps),
                                                      foreignKeys, tableIdMaps)
      ensures warnings == old(warnings) + PassWarnings(old(store), tables, PassEnd(old(store), tables, foreignKeys, tableIdMaps),
                                                       foreignKeys, tableIdMaps)
                                        + multiset(pending)
      ensures pending <= PendingPassMisses(old(store), tables, foreignKeys, tableIdMaps)
      ensures !thrown ==> pending == {}
    {
      var i := 0;
      while i < |tables|
        invariant 0 <= i <= |tables|
        invariant Valid()
        invariant PassStop(old(store), tables, foreignKeys, tableIdMaps) == StopFrom(old(store), tables, i, foreignKeys, tableIdMaps)
        invariant store == RemapPass(old(store), tables, i, foreignKeys, tableIdMaps)
        invariant warnings == old(warnings) + PassWarnings(old(store), tables, i, foreignKeys, tableIdMaps)
        invariant updateLog == old(updateLog) + PassCalls(old(store), tables, i, foreignKeys, tableIdMaps)
      {
        ghost var store0, warnings0, log0 := store, warnings, updateLog;
        var thrownHere, pendingHere := RemapForeignKeys(tables[i]);
        PassAdvance(old(store), tables, i, foreignKeys, tableIdMaps, thrownHere, pendingHere, store0, store,
                    old(updateLog), log0, updateLog, old(warnings), warnings0, warnings);
        if thrownHere {
          return true, pendingHere;
        }
        i := i + 1;
      }
      PassEndAll(old(store), tables, foreignKeys, tableIdMaps);
      return false, {};
    }

    /** `handle`: resolve the foreign keys, copy every table (minting every
        identifier and filling every identity map), write the debug
        snapshot, and only then remap the references of every table, each
        against the complete identity maps. `aborted` says that the remap
        pass threw and ended the command; `pending` holds the warnings the
        document that threw raised before. */
    method Handle(db: Database, plural: Name -> Name) returns (ghost copied: Store, aborted: bool, ghost pending: set<Warning>)
      requires Valid() && SqlSource(db)
      modifies this
      ensures Valid()
      ensures forall t, c :: Lookup(foreignKeys, t, c) == Resolved(old(foreignKeys), db, plural, t, c)
      ensures nextId == old(nextId) + RowsBefore(db, db.tables, |db.tables|)
      ensures copied == CopyPass(db, old(store), db.tables, |db.tables|, old(nextId))
      ensures tableIdMaps == CopyIdMaps(db, old(tableIdMaps), db.tables, |db.tables|, old(nextId))
      ensures debugFile == Some(Snapshot(tableIdMaps, foreignKeys))
      ensures aborted <==> PassStop(copied, db.tables, foreignKeys, tableIdMaps) < |db.tables|
      ensures store == RemapPass(copied, db.tables, PassEnd(copied, db.tables, foreignKeys, tableIdMaps),
                                 foreignKeys, tableIdMaps)
      ensures updateLog == old(updateLog) + PassCalls(copied, db.tables, PassEnd(copied, db.tables, foreignKeys, tableIdMaps),
                                                      foreignKeys, tableIdMaps)
      ensures warnings == old(warnings) + PassWarnings(copied, db.tables, PassEnd(copied, db.tables, foreignKeys, tableIdMaps),
                                                       foreignKeys, tableIdMaps)
                                        + multiset(pending)
      ensures pending <= PendingPassMisses(copied, db.tables, foreignKeys, tableIdMaps)
      ensures !aborted ==> pending == {}
    {
      var tables := db.tables;
      LoadForeignKeys(db, plural);
      CopyTables(db, tables);
      debugFile := Some(Snapshot(tableIdMaps, foreignKeys));
      copied := store;
      aborted, pending := RemapTables(tables);
    }
  }
}

=== FILE: reference_remapper.dfy ===
/** The reference remapper: the second pass that rewrites every foreign-key
    field of a document from an old relational key to the identifier minted
    for the referenced row. */
module ReferenceRemapper {
  import opened Schema
  import opened DocumentStore
  import opened ForeignKeys
  import opened TableMigrator

  /** The console warning for a reference with no identity entry. */
  datatype Warning = Dangling(table: Name, column: Name, value: Value, referencedTable: Name)

  /** `$doc[$column] ?? null` is not null: the field takes part in the remap. */
  predicate HasReference(doc: Doc, c: Name)
  {
    c in doc && doc[c] != Null
  }

  /** The field holds a minted identifier (an ObjectId object) while the
      referenced table has an identity map: using the object as a key of
      that array throws a TypeError, which ends the command. */
  predicate Throws(doc: Doc, c: Name, target: FkTarget, maps: map<Name, IdMap>)
  {
    HasReference(doc, c) && doc[c].Oid? && target.referencedTable in maps
  }

  /** The referenced table's identity map holds the field's value. */
  predicate Resolves(doc: Doc, c: Name, target: FkTarget, maps: map<Name, IdMap>)
  {
    HasReference(doc, c) && !doc[c].Oid? && target.referencedTable in maps && doc[c] in maps[target.referencedTable]
  }

  /** A dangling reference: a value with no identity entry, also when the
      referenced table has no identity map at all. */
  predicate Dangles(doc: Doc, c: Name, target: FkTarget, maps: map<Name, IdMap>)
  {
    HasReference(doc, c) && !Throws(doc, c, target, maps) && !Resolves(doc, c, target, maps)
  }

  function NewIdFor(doc: Doc, c: Name, target: FkTarget, maps: map<Name, IdMap>): Value
    requires Resolves(doc, c, target, maps)
  {
    Oid(maps[target.referencedTable][doc[c]])
  }

  /** The `$updates` staged for one document. */
  function StagedUpdates(doc: Doc, fks: map<Name, FkTarget>, maps: map<Name, IdMap>): map<Name, Value>
  {
    map c | c in fks && Resolves(doc, c, fks[c], maps) :: NewIdFor(doc, c, fks[c], maps)
  }

  /** The warnings raised for one document. */
  function Misses(table: Name, doc: Doc, fks: map<Name, FkTarget>, maps: map<Name, IdMap>): set<Warning>
  {
    set c | c in fks && Dangles(doc, c, fks[c], maps) :: Dangling(table, c, doc[c], fks[c].referencedTable)
  }

  /** The document after its staged `$set`: exactly the foreign-key fields
      whose value resolves are replaced by the minted identifier; every other
      field, missing, null and dangling references included, is unchanged. */
  function RemapDoc(doc: Doc, fks: map<Name, FkTarget>, maps: map<Name, IdMap>): Doc
  {
    doc + StagedUpdates(doc, fks, maps)
  }

  lemma RemapDocFields(doc: Doc, fks: map<Name, FkTarget>, maps: map<Name, IdMap>)
    ensures RemapDoc(doc, fks, maps).Keys == doc.Keys
    ensures forall f :: f in doc ==>
      RemapDoc(doc, fks, maps)[f] ==
        if f in fks && Resolves(doc, f, fks[f], maps) then NewIdFor(doc, f, fks[f], maps) else doc[f]
  {
  }

  function RemapAll(c: seq<Doc>, fks: map<Name, FkTarget>, maps: map<Name, IdMap>): (r: seq<Doc>)
    ensures |r| == |c|
  {
    seq(|c|, j requires 0 <= j < |c| => RemapDoc(c[j], fks, maps))
  }

  /** In a remapped collection, a foreign-key field of the `p`-th document
      whose value resolves holds the identifier the identity map gives it. */
  lemma RemapAllField(c: seq<Doc>, fks: map<Name, FkTarget>, maps: map<Name, IdMap>, p: nat, col: Name)
    requires p < |c| && col in fks && Resolves(c[p], col, fks[col], maps)
    ensures col in RemapAll(c, fks, maps)[p]
    ensures RemapAll(c, fks, maps)[p][col] == NewIdFor(c[p], col, fks[col], maps)
  {
    RemapDocFields(c[p], fks, maps);
  }

  /** All warnings raised while remapping a collection. */
  function AllMisses(table: Name, c: seq<Doc>, fks: map<Name, FkTarget>, maps: map<Name, IdMap>): multiset<Warning>
  {
    if |c| == 0 then multiset{}
    else AllMisses(table, c[..|c| - 1], fks, maps) + multiset(Misses(table, c[|c| - 1], fks, maps))
  }

  /** One `updateOne` call: the collection, the `_id` filter and the `$set`. */
  datatype UpdateCall = UpdateCall(collection: Name, id: Value, fields: map<Name, Value>)

  /** The `updateOne` calls the remap of a collection issues, in cursor
      order: one for each document with at least one resolved column. */
  function UpdateCalls(table: Name, c: seq<Doc>, fks: map<Name, FkTarget>, maps: map<Name, IdMap>): seq<UpdateCall>
  {
    if |c| == 0 then []
    else UpdateCalls(table, c[..|c| - 1], fks, maps) + CallFor(table, c[|c| - 1], fks, maps)
  }

  /** The call issued for one document: none when nothing was staged. */
  function CallFor(table: Name, d: Doc, fks: map<Name, FkTarget>, maps: map<Name, IdMap>): seq<UpdateCall>
  {
    var staged := StagedUpdates(d, fks, maps);
    if staged != map[] then [UpdateCall(table, IdOf(d), staged)] else []
  }

  /** The remap of this document ends the command: the column loop reaches
      a field that throws, or the staged `$set` names `_id`, which the
      server refuses to change. */
  predicate DocThrows(doc: Doc, fks: map<Name, FkTarget>, maps: map<Name, IdMap>)
  {
    (exists c :: c in fks && Throws(doc, c, fks[c], maps))
    || ("_id" in fks && Resolves(doc, "_id", fks["_id"], maps))
  }

  /** The position of the first document of a cursor whose remap ends the
      command, or the length of the cursor when there is none. */
  function FirstThrow(c: seq<Doc>, fks: map<Name, FkTarget>, maps: map<Name, IdMap>): (p: nat)
    ensures p <= |c|
  {
    if |c| == 0 then 0
    else if DocThrows(c[0], fks, maps) then 0
    else 1 + FirstThrow(c[1..], fks, maps)
  }

  /** No document before the first that throws throws. */
  lemma {:induction false} FirstThrowIsFirst(c: seq<Doc>, fks: map<Name, FkTarget>, maps: map<Name, IdMap>)
    ensures forall j :: 0 <= j < FirstThrow(c, fks, maps) ==> !DocThrows(c[j], fks, maps)
    ensures FirstThrow(c, fks, maps) < |c| ==> DocThrows(c[FirstThrow(c, fks, maps)], fks, maps)
  {
    if |c| > 0 && !DocThrows(c[0], fks, maps) {
      FirstThrowIsFirst(c[1..], fks, maps);
      assert forall j :: 1 <= j < |c| ==> c[1..][j - 1] == c[j];
    }
  }

  /** Some document of the cursor ends the command. */
  predicate CollThrows(c: seq<Doc>, fks: map<Name, FkTarget>, maps: map<Name, IdMap>)
  {
    FirstThrow(c, fks, maps) < |c|
  }

  /** A cursor whose documents hold minted identifiers in `_id` only, whose
      `_id` column has no rule or one to a table without a map, never
      throws: every document is remapped. */
  lemma OidOnlyInIdNoThrow(c: seq<Doc>, fks: map<Name, FkTarget>, maps: map<Name, IdMap>)
    requires "_id" in fks ==> fks["_id"].referencedTable !in maps
    requires forall j :: 0 <= j < |c| ==> OidOnlyInId(c[j])
    ensures !CollThrows(c, fks, maps)
  {
    FirstThrowIsFirst(c, fks, maps);
  }

  /** The collection the cursor loop leaves behind: the documents before the
      first that throws are remapped, that one and every later one are as
      they were. */
  function PartialRemap(c: seq<Doc>, fks: map<Name, FkTarget>, maps: map<Name, IdMap>): (r: seq<Doc>)
    ensures |r| == |c|
    ensures !CollThrows(c, fks, maps) ==> r == RemapAll(c, fks, maps)
  {
    var p := FirstThrow(c, fks, maps);
    assert p == |c| ==> c[..p] == c && c[p..] == [];
    RemapAll(c[..p], fks, maps) + c[p..]
  }

  /** The warnings of the documents the cursor loop finished. */
  function CollMisses(table: Name, c: seq<Doc>, fks: map<Name, FkTarget>, maps: map<Name, IdMap>): multiset<Warning>
  {
    AllMisses(table, c[..FirstThrow(c, fks, maps)], fks, maps)
  }

  /** The warnings the document that throws can raise before it throws. */
  function PendingMisses(table: Name, c: seq<Doc>, fks: map<Name, FkTarget>, maps: map<Name, IdMap>): set<Warning>
  {
    var p := FirstThrow(c, fks, maps);
    if p < |c| then Misses(table, c[p], fks, maps) else {}
  }

  /** The `updateOne` calls of the documents the cursor loop finished. */
  function CollCalls(table: Name, c: seq<Doc>, fks: map<Name, FkTarget>, maps: map<Name, IdMap>): seq<UpdateCall>
  {
    UpdateCalls(table, c[..FirstThrow(c, fks, maps)], fks, maps)
  }

  /** The updates staged for the columns `done` of a document. */
  function StagedAmong(doc: Doc, fks: map<Name, FkTarget>, maps: map<Name, IdMap>, done: set<Name>): map<Name, Value>
  {
    map c | c in fks && c in done && Resolves(doc, c, fks[c], maps) :: NewIdFor(doc, c, fks[c], maps)
  }

  /** The warnings raised for the columns `done` of a document. */
  function MissesAmong(table: Name, doc: Doc, fks: map<Name, FkTarget>, maps: map<Name, IdMap>, done: set<Name>): set<Warning>
  {
    set c | c in fks && c in done && Dangles(doc, c, fks[c], maps) :: Dangling(table, c, doc[c], fks[c].referencedTable)
  }

  /** Handling one more column stages its new identifier if it resolves and
      raises its warning if it dangles. */
  lemma ColumnStep(table: Name, doc: Doc, fks: map<Name, FkTarget>, maps: map<Name, IdMap>, done: set<Name>, column: Name)
    requires column in fks && column !in done
    ensures Resolves(doc, column, fks[column], maps) ==>
      StagedAmong(doc, fks, maps, done + {column}) ==
        StagedAmong(doc, fks, maps, done)[column := NewIdFor(doc, column, fks[column], maps)]
    ensures !Resolves(doc, column, fks[column], maps) ==>
      StagedAmong(doc, fks, maps, done + {column}) == StagedAmong(doc, fks, maps, done)
    ensures Dangles(doc, column, fks[column], maps) ==>
      MissesAmong(table, doc, fks, maps, done + {column}) ==
        MissesAmong(table, doc, fks, maps, done) + {Dangling(table, column, doc[column], fks[column].referencedTable)}
    ensures !Dangles(doc, column, fks[column], maps) ==>
      MissesAmong(table, doc, fks, maps, done + {column}) == MissesAmong(table, doc, fks, maps, done)
  {
  }

  /** No column handled stages nothing; all columns handled is the whole
      document. */
  lemma ColumnsNoneAndAll(table: Name, doc: Doc, fks: map<Name, FkTarget>, maps: map<Name, IdMap>)
    ensures StagedAmong(doc, fks, maps, {}) == map[]
    ensures MissesAmong(table, doc, fks, maps, {}) == {}
    ensures StagedAmong(doc, fks, maps, fks.Keys) == StagedUpdates(doc, fks, maps)
    ensures MissesAmong(table, doc, fks, maps, fks.Keys) == Misses(table, doc, fks, maps)
  {
  }

  /** The column loop of one document: stage the resolved columns and
      collect a warning for each dangling one, until a column throws. The
      columns are visited in no particular order, so a document that throws
      has raised some of its warnings, not necessarily all. */
  method StageUpdates(table: Name, doc: Doc, fks: map<Name, FkTarget>, maps: map<Name, IdMap>)
    returns (updates: map<Name, Value>, misses: set<Warning>, thrown: bool)
    ensures thrown <==> exists c :: c in fks && Throws(doc, c, fks[c], maps)
    ensures !thrown ==> updates == StagedUpdates(doc, fks, maps)
    ensures !thrown ==> misses == Misses(table, doc, fks, maps)
    ensures misses <= Misses(table, doc, fks, maps)
  {
    updates, misses, thrown := map[], {}, false;
    var todo := fks.Keys;
    ColumnsNoneAndAll(table, doc, fks, maps);
    while todo != {}
      invariant todo <= fks.Keys
      invariant updates == StagedAmong(doc, fks, maps, fks.Keys - todo)
      invariant misses == MissesAmong(table, doc, fks, maps, fks.Keys - todo)
      invariant forall c :: c in fks.Keys - todo ==> !Throws(doc, c, fks[c], maps)
      decreases todo
    {
      var column :| column in todo;
      ColumnStep(table, doc, fks, maps, fks.Keys - todo, column);
      assert fks.Keys - (todo - {column}) == (fks.Keys - todo) + {column};
      var fk := fks[column];
      if column in doc && doc[column] != Null {
        var value := doc[column];
        if fk.referencedTable in maps && value.Oid? {
          assert Throws(doc, column, fks[column], maps);
          thrown := true;
          return;
        }
        if fk.referencedTable in maps && value in maps[fk.referencedTable] {
          updates := updates[column := Oid(maps[fk.referencedTable][value])];
        } else {
          misses := misses + {Dangling(table, column, value, fk.referencedTable)};
        }
      }
      todo := todo - {column};
    }
  }

  /** The remap of a document that does not throw never rewrites its own
      identity. */
  lemma RemapKeepsId(doc: Doc, fks: map<Name, FkTarget>, maps: map<Name, IdMap>)
    requires !DocThrows(doc, fks, maps)
    ensures IdOf(RemapDoc(doc, fks, maps)) == IdOf(doc)
  {
  }

  /** A collection part of whose documents are remapped keeps its
      identifiers, hence stays valid. */
  lemma PartialRemapValid(c: seq<Doc>, i: nat, fks: map<Name, FkTarget>, maps: map<Name, IdMap>, bound: nat)
    requires CollectionValid(c, bound) && i <= |c|
    requires forall j :: 0 <= j < i ==> !DocThrows(c[j], fks, maps)
    ensures |RemapAll(c[..i], fks, maps) + c[i..]| == |c|
    ensures forall j :: 0 <= j < |c| ==> IdOf((RemapAll(c[..i], fks, maps) + c[i..])[j]) == IdOf(c[j])
    ensures CollectionValid(RemapAll(c[..i], fks, maps) + c[i..], bound)
  {
    var r := RemapAll(c[..i], fks, maps) + c[i..];
    forall j | 0 <= j < |c| ensures IdOf(r[j]) == IdOf(c[j]) {
      if j < i {
        assert r[j] == RemapDoc(c[j], fks, maps);
        RemapKeepsId(c[j], fks, maps);
      } else {
        assert r[j] == c[j];
      }
    }
  }

  /** The cursor loop keeps a collection valid, whether or not it throws. */
  lemma PartialRemapKeepsValid(c: seq<Doc>, fks: map<Name, FkTarget>, maps: map<Name, IdMap>, bound: nat)
    requires CollectionValid(c, bound)
    ensures CollectionValid(PartialRemap(c, fks, maps), bound)
  {
    FirstThrowIsFirst(c, fks, maps);
    PartialRemapValid(c, FirstThrow(c, fks, maps), fks, maps, bound);
  }

  /** A document that throws stops the cursor: it and every later document
      keep their fields, and the ones before it are remapped. */
  lemma ThrowStopsCursor(c: seq<Doc>, i: nat, fks: map<Name, FkTarget>, maps: map<Name, IdMap>)
    requires i < |c| && DocThrows(c[i], fks, maps)
    ensures CollThrows(c, fks, maps) && FirstThrow(c, fks, maps) <= i
    ensures forall j :: i <= j < |c| ==> PartialRemap(c, fks, maps)[j] == c[j]
  {
    FirstThrowIsFirst(c, fks, maps);
    var p := FirstThrow(c, fks, maps);
    var r := PartialRemap(c, fks, maps);
    forall j | i <= j < |c| ensures r[j] == c[j] {
      assert r[j] == c[p..][j - p];
    }
  }

  /** Remapping one more document of a partly remapped collection. */
  lemma RemapAllSnoc(c: seq<Doc>, i: nat, fks: map<Name, FkTarget>, maps: map<Name, IdMap>)
    requires i < |c|
    ensures RemapAll(c[..i + 1], fks, maps) + c[i + 1..] == (RemapAll(c[..i], fks, maps) + c[i..])[i := RemapDoc(c[i], fks, maps)]
  {
    var next := RemapAll(c[..i + 1], fks, maps) + c[i + 1..];
    var prev := RemapAll(c[..i], fks, maps) + c[i..];
    forall j | 0 <= j < |c| ensures next[j] == prev[i := RemapDoc(c[i], fks, maps)][j] {
      if j < i {
        assert c[..i + 1][j] == c[j] && c[..i][j] == c[j];
      } else if j == i {
        assert c[..i + 1][i] == c[i];
      }
    }
  }

  /** The `updateOne` for the `i`-th document of the cursor, applied to the
      collection as the earlier updates left it, remaps exactly that
      document; when nothing is staged the document is already remapped. */
  lemma RemapInPlace(c: seq<Doc>, i: nat, fks: map<Name, FkTarget>, maps: map<Name, IdMap>, bound: nat, coll: seq<Doc>)
    requires CollectionValid(c, bound) && i < |c|
    requires forall j :: 0 <= j < i ==> !DocThrows(c[j], fks, maps)
    requires coll == RemapAll(c[..i], fks, maps) + c[i..]
    ensures StagedUpdates(c[i], fks, maps) != map[] ==>
      UpdateOne(coll, IdOf(c[i]), StagedUpdates(c[i], fks, maps)) == RemapAll(c[..i + 1], fks, maps) + c[i + 1..]
    ensures StagedUpdates(c[i], fks, maps) == map[] ==> coll == RemapAll(c[..i + 1], fks, maps) + c[i + 1..]
  {
    var updates := StagedUpdates(c[i], fks, maps);
    PartialRemapValid(c, i, fks, maps, bound);
    assert coll[i] == c[i];
    UpdateOneAt(coll, i, updates);
    RemapAllSnoc(c, i, fks, maps);
    if updates == map[] {
      assert c[i] + updates == c[i];
    }
  }

  /** The body of the cursor loop for one document: stage its columns and,
      when something was staged, issue the `updateOne` keyed by its `_id`.
      A column that throws, or a `$set` on `_id`, ends the command with the
      collection unchanged by this document. */
  method RemapDocument(table: Name, coll: seq<Doc>, doc: Doc, fks: map<Name, FkTarget>, maps: map<Name, IdMap>)
    returns (coll': seq<Doc>, misses: set<Warning>, call: seq<UpdateCall>, thrown: bool)
    ensures thrown <==> DocThrows(doc, fks, maps)
    ensures thrown ==> coll' == coll && call == []
    ensures !thrown && StagedUpdates(doc, fks, maps) != map[] ==> coll' == UpdateOne(coll, IdOf(doc), StagedUpdates(doc, fks, maps))
    ensures !thrown && StagedUpdates(doc, fks, maps) == map[] ==> coll' == coll
    ensures !thrown ==> call == CallFor(table, doc, fks, maps)
    ensures !thrown ==> misses == Misses(table, doc, fks, maps)
    ensures misses <= Misses(table, doc, fks, maps)
  {
    var updates;
    updates, misses, thrown := StageUpdates(table, doc, fks, maps);
    coll', call := coll, [];
    if !thrown && updates != map[] {
      if "_id" in updates {
        thrown := true;
      } else {
        coll' := UpdateOne(coll, IdOf(doc), updates);
        call := [UpdateCall(table, IdOf(doc), updates)];
      }
    }
  }

  /** The cursor loop of `remapForeignKeys` over one collection: each
      document's staged `$set` is applied by an `updateOne` keyed by its
      `_id`, and only when something was staged; the first document that
      throws ends the loop, leaving the earlier updates in place. `pending`
      holds the warnings that document raised before it threw. */
  method RemapCollection(table: Name, cursor: seq<Doc>, fks: map<Name, FkTarget>, maps: map<Name, IdMap>, ghost bound: nat)
    returns (coll: seq<Doc>, warnings: multiset<Warning>, calls: seq<UpdateCall>, thrown: bool, ghost pending: set<Warning>)
    requires CollectionValid(cursor, bound)
    ensures thrown <==> CollThrows(cursor, fks, maps)
    ensures coll == PartialRemap(cursor, fks, maps)
    ensures calls == CollCalls(table, cursor, fks, maps)
    ensures warnings == CollMisses(table, cursor, fks, maps) + multiset(pending)
    ensures pending <= PendingMisses(table, cursor, fks, maps)
    ensures !thrown ==> pending == {}
  {
    coll, warnings, calls, thrown, pending := cursor, multiset{}, [], false, {};
    var i := 0;
    assert RemapAll(cursor[..0], fks, maps) + cursor[0..] == cursor;
    while i < |cursor|
      invariant 0 <= i <= |cursor|
      invariant forall j :: 0 <= j < i ==> !DocThrows(cursor[j], fks, maps)
      invariant coll == RemapAll(cursor[..i], fks, maps) + cursor[i..]
      invariant warnings == AllMisses(table, cursor[..i], fks, maps)
      invariant calls == UpdateCalls(table, cursor[..i], fks, maps)
    {
      var doc := cursor[i];
      RemapInPlace(cursor, i, fks, maps, bound, coll);
      var coll', misses, call, thrownHere := RemapDocument(table, coll, doc, fks, maps);
      RemapStep(table, cursor, i, fks, maps);
      if thrownHere {
        CursorStops(table, cursor, i, fks, maps, misses);
        warnings := warnings + multiset(misses);
        thrown, pending := true, misses;
        return;
      }
      coll, calls := coll', calls + call;
      warnings := warnings + multiset(misses);
      i := i + 1;
    }
    CursorEnds(table, cursor, fks, maps);
  }

  /** The cursor loop stops at the `i`-th document, the first that throws:
      what it has done so far is the partial remap, and the warnings the
      document raised before throwing are some of its own. */
  lemma CursorStops(table: Name, c: seq<Doc>, i: nat, fks: map<Name, FkTarget>, maps: map<Name, IdMap>, misses: set<Warning>)
    requires i < |c| && DocThrows(c[i], fks, maps)
    requires forall j :: 0 <= j < i ==> !DocThrows(c[j], fks, maps)
    requires misses <= Misses(table, c[i], fks, maps)
    ensures CollThrows(c, fks, maps)
    ensures RemapAll(c[..i], fks, maps) + c[i..] == PartialRemap(c, fks, maps)
    ensures UpdateCalls(table, c[..i], fks, maps) == CollCalls(table, c, fks, maps)
    ensures AllMisses(table, c[..i], fks, maps) == CollMisses(table, c, fks, maps)
    ensures misses <= PendingMisses(table, c, fks, maps)
  {
    FirstThrowIsFirst(c, fks, maps);
    assert FirstThrow(c, fks, maps) == i;
  }

  /** The cursor loop runs to the end when no document throws. */
  lemma CursorEnds(table: Name, c: seq<Doc>, fks: map<Name, FkTarget>, maps: map<Name, IdMap>)
    requires forall j :: 0 <= j < |c| ==> !DocThrows(c[j], fks, maps)
    ensures !CollThrows(c, fks, maps)
    ensures RemapAll(c[..|c|], fks, maps) + c[|c|..] == PartialRemap(c, fks, maps)
    ensures UpdateCalls(table, c[..|c|], fks, maps) == CollCalls(table, c, fks, maps)
    ensures AllMisses(table, c[..|c|], fks, maps) == CollMisses(table, c, fks, maps)
    ensures PendingMisses(table, c, fks, maps) == {}
  {
    FirstThrowIsFirst(c, fks, maps);
    assert FirstThrow(c, fks, maps) == |c|;
  }

  /** One more document of the cursor processed. */
  lemma RemapStep(table: Name, c: seq<Doc>, i: nat, fks: map<Name, FkTarget>, maps: map<Name, IdMap>)
    requires i < |c|
    ensures AllMisses(table, c[..i + 1], fks, maps) == AllMisses(table, c[..i], fks, maps) + multiset(Misses(table, c[i], fks, maps))
    ensures UpdateCalls(table, c[..i + 1], fks, maps) == UpdateCalls(table, c[..i], fks, maps) + CallFor(table, c[i], fks, maps)
  {
    assert c[..i + 1][..i] == c[..i];
    assert c[..i + 1][i] == c[i];
  }

  /** Only the referenced table of a rule matters; its referenced column is
      never consulted. */
  lemma ReferencedColumnIgnored(table: Name, doc: Doc, fks: map<Name, FkTarget>, fks': map<Name, FkTarget>, maps: map<Name, IdMap>)
    requires fks.Keys == fks'.Keys
    requires forall c :: c in fks ==> fks[c].referencedTable == fks'[c].referencedTable
    ensures DocThrows(doc, fks, maps) == DocThrows(doc, fks', maps)
    ensures RemapDoc(doc, fks, maps) == RemapDoc(doc, fks', maps)
    ensures Misses(table, doc, fks, maps) == Misses(table, doc, fks', maps)
  {
    assert StagedUpdates(doc, fks, maps) == StagedUpdates(doc, fks', maps);
    assert (exists c :: c in fks && Throws(doc, c, fks[c], maps)) ==> exists c :: c in fks' && Throws(doc, c, fks'[c], maps);
    assert (exists c :: c in fks' && Throws(doc, c, fks'[c], maps)) ==> exists c :: c in fks && Throws(doc, c, fks[c], maps);
  }

  /** The two passes together: a row's reference to a migrated row ends up
      holding the identifier of that row's document. */
  lemma ReferenceRoundTrip(row: Row, pk0: Option<Name>, newId: nat, c: Name, fks: map<Name, FkTarget>,
                           maps: map<Name, IdMap>, refRows: seq<Row>, pk: Name, start: nat, k: nat)
    requires c != "_id" && !(HasPrimaryKey(pk0) && (c == "mysql_id" || c == pk0.value))
    requires c in fks && fks[c].referencedTable in maps
    requires "_id" in fks ==> fks["_id"].referencedTable !in maps
    requires maps[fks[c].referencedTable] == IdMapOf(refRows, pk, start)
    requires DistinctPks(refRows, pk) && pk != "" && pk != "0"
    requires SqlRow(row) && k < |refRows| && c in row && row[c] == OldId(refRows[k], pk) && row[c] != Null
    ensures !DocThrows(MigrateRow(row, pk0, newId), fks, maps)
    ensures c in RemapDoc(MigrateRow(row, pk0, newId), fks, maps)
    ensures RemapDoc(MigrateRow(row, pk0, newId), fks, maps)[c] == IdOf(MigratedDocs(refRows, Some(pk), start)[k])
  {
    MigrateRowOidOnlyInId(row, pk0, newId);
    IdentityMapEntry(refRows, pk, start, k);
    MigratedDocFields(refRows, Some(pk), start, k, "_id");
    var d := MigrateRow(row, pk0, newId);
    MigrateRowShape(row, pk0, newId);
    assert c in d && d[c] == row[c];
    RemapDocFields(d, fks, maps);
  }

  /** A reference to a key no row of the referenced table holds stays as it
      was and raises a warning. */
  lemma DanglingReferenceKept(table: Name, doc: Doc, c: Name, fks: map<Name, FkTarget>,
                              maps: map<Name, IdMap>, refRows: seq<Row>, pk: Name, start: nat)
    requires c in fks && HasReference(doc, c)
    requires !doc[c].Oid? || fks[c].referencedTable !in maps
    requires fks[c].referencedTable in maps ==> maps[fks[c].referencedTable] == IdMapOf(refRows, pk, start)
    requires doc[c] !in PkValues(refRows, pk)
    ensures RemapDoc(doc, fks, maps)[c] == doc[c]
    ensures Dangling(table, c, doc[c], fks[c].referencedTable) in Misses(table, doc, fks, maps)
  {
    IdMapKeys(refRows, pk, start);
  }

  /** A minted identifier in a foreign-key field whose referenced table has
      an identity map ends the command at that document. */
  lemma ObjectIdReferenceThrows(c: seq<Doc>, i: nat, col: Name, fks: map<Name, FkTarget>, maps: map<Name, IdMap>)
    requires i < |c| && col in fks && HasReference(c[i], col)
    requires c[i][col].Oid? && fks[col].referencedTable in maps
    ensures DocThrows(c[i], fks, maps)
    ensures CollThrows(c, fks, maps) && FirstThrow(c, fks, maps) <= i
  {
    FirstThrowIsFirst(c, fks, maps);
    assert Throws(c[i], col, fks[col], maps);
  }

  /** Remapping a document twice, as a second run of the command does,
      throws: a reference the first remap resolved now holds a minted
      identifier, and its referenced table still has a map. */
  lemma RemapTwiceThrows(doc: Doc, col: Name, fks: map<Name, FkTarget>, maps: map<Name, IdMap>)
    requires col in fks && Resolves(doc, col, fks[col], maps)
    ensures DocThrows(RemapDoc(doc, fks, maps), fks, maps)
  {
    RemapDocFields(doc, fks, maps);
    assert Throws(RemapDoc(doc, fks, maps), col, fks[col], maps);
  }
}

=== FILE: schema.dfy ===
/** The relational source as the migration command sees it: table names,
    column catalog entries, declared foreign-key constraints and the rows of
    every table, plus the tagged scalar values that rows and documents hold. */
module Schema {

  datatype Option<T> = None | Some(value: T)

  type Name = string

  /** A tagged scalar. `Oid` is a document identifier minted by the sink;
      values read from the relational source are never `Oid`. */
  datatype Value = Null | Int(i: int) | Str(s: string) | Bool(b: bool) | Oid(id: nat)

  /** A row maps column names to values (field order is not modelled). */
  type Row = map<Name, Value>

  /** One entry of the column catalog: its name and its COLUMN_KEY marker. */
  datatype ColumnInfo = ColumnInfo(name: Name, key: string)

  /** One declared constraint row from the key-column-usage catalog. */
  datatype DeclaredFk = DeclaredFk(table: Name, column: Name, referencedTable: Name, referencedColumn: Name)

  /** Everything the command reads from the relational side. */
  datatype Database = Database(
    tables: seq<Name>,
    columns: map<Name, seq<ColumnInfo>>,
    declared: seq<DeclaredFk>,
    rows: map<Name, seq<Row>>)

  function ColumnsOf(db: Database, t: Name): seq<ColumnInfo>
  {
    if t in db.columns then db.columns[t] else []
  }

  function ColumnNames(db: Database, t: Name): seq<Name>
  {
    var cols := ColumnsOf(db, t);
    seq(|cols|, i requires 0 <= i < |cols| => cols[i].name)
  }

  function RowsOf(db: Database, t: Name): seq<Row>
  {
    if t in db.rows then db.rows[t] else []
  }

  predicate IsPrimary(c: ColumnInfo)
  {
    c.key == "PRI"
  }

  /** The primary-key column of a table: the first catalog column marked
      PRI, or None when no column is. */
  function PrimaryKeyOf(cols: seq<ColumnInfo>): Option<Name>
  {
    if |cols| == 0 then None
    else if IsPrimary(cols[0]) then Some(cols[0].name)
    else PrimaryKeyOf(cols[1..])
  }

  /** The primary key is the first column flagged `PRI`, and there is none
      exactly when no column is flagged. */
  lemma {:induction false} PrimaryKeyOfFirst(cols: seq<ColumnInfo>)
    ensures PrimaryKeyOf(cols).None? <==> forall i :: 0 <= i < |cols| ==> !IsPrimary(cols[i])
    ensures PrimaryKeyOf(cols).Some? ==>
      exists i :: 0 <= i < |cols| && IsPrimary(cols[i]) && cols[i].name == PrimaryKeyOf(cols).value
                  && forall j :: 0 <= j < i ==> !IsPrimary(cols[j])
  {
    if |cols| > 0 && !IsPrimary(cols[0]) {
      PrimaryKeyOfFirst(cols[1..]);
      assert forall i :: 1 <= i < |cols| ==> cols[i] == cols[1..][i - 1];
      if PrimaryKeyOf(cols).Some? {
        var i :| 0 <= i < |cols[1..]| && IsPrimary(cols[1..][i]) && cols[1..][i].name == PrimaryKeyOf(cols).value
                  && forall j :: 0 <= j < i ==> !IsPrimary(cols[1..][j]);
        assert IsPrimary(cols[i + 1]) && cols[i + 1].name == PrimaryKeyOf(cols).value;
        forall j | 0 <= j < i + 1 ensures !IsPrimary(cols[j]) {
          if j > 0 { assert cols[j] == cols[1..][j - 1]; }
        }
      }
    } else if |cols| > 0 {
      assert IsPrimary(cols[0]) && cols[0].name == PrimaryKeyOf(cols).value;
    }
  }

  function PrimaryKey(db: Database, t: Name): Option<Name>
  {
    PrimaryKeyOf(ColumnsOf(db, t))
  }

  /** PHP's `!empty($primaryKey)`: a null, "" or "0" column name counts as
      no primary key. */
  predicate HasPrimaryKey(pk: Option<Name>)
  {
    pk.Some? && pk.value != "" && pk.value != "0"
  }

  predicate SqlRow(r: Row)
  {
    forall k :: k in r ==> !r[k].Oid?
  }

  predicate SqlRows(rows: seq<Row>)
  {
    forall j :: 0 <= j < |rows| ==> SqlRow(rows[j])
  }

  /** Every value the relational source holds is a relational scalar. */
  predicate SqlSource(db: Database)
  {
    forall t :: t in db.rows ==> SqlRows(db.rows[t])
  }

  /** The `k`-th name of `ts` occurs nowhere else in it. */
  predicate UniqueAt(ts: seq<Name>, k: nat)
  {
    k < |ts| && forall m :: 0 <= m < |ts| && m != k ==> ts[m] != ts[k]
  }
}

=== FILE: table_migrator.dfy ===
/** The table migrator: how one source row becomes one document, and the
    identity map (old primary-key value -> minted identifier) of a table. */
module TableMigrator {
  import opened Schema
  import opened DocumentStore

  /** Old primary-key value -> number of the minted identifier. */
  type IdMap = map<Value, nat>

  /** `$rowArray[$primaryKey]`; PHP reads a missing key as null. */
  function OldId(row: Row, pk: Name): Value
  {
    if pk in row then row[pk] else Null
  }

  /** The document written for `row` under the minted identifier `newId`
      (the body of the row loop). */
  function MigrateRow(row: Row, pk: Option<Name>, newId: nat): Doc
  {
    var moved := if HasPrimaryKey(pk) then row["mysql_id" := OldId(row, pk.value)] - {pk.value} else row;
    moved["_id" := Oid(newId)]
  }

  /** The shape of a migrated document. It always carries `_id`, the minted
      identifier, which replaces any column of that name. Without a primary
      key that is the only change. With one, the key value moves to
      `mysql_id` and the key column is dropped; since the value is set before
      the column is unset, a key column itself named `mysql_id` is lost.
      Every other column is copied unchanged. */
  lemma MigrateRowShape(row: Row, pk: Option<Name>, newId: nat)
    ensures var d := MigrateRow(row, pk, newId);
      && "_id" in d && d["_id"] == Oid(newId)
      && (!HasPrimaryKey(pk) ==> d == row["_id" := Oid(newId)])
      && (HasPrimaryKey(pk) && pk.value != "mysql_id" ==>
            "mysql_id" in d && d["mysql_id"] == OldId(row, pk.value)
            && d.Keys == row.Keys - {pk.value} + {"mysql_id", "_id"})
      && (HasPrimaryKey(pk) && pk.value == "mysql_id" ==> d.Keys == row.Keys - {"mysql_id"} + {"_id"})
      && (forall f :: f in d && f != "_id" && f != "mysql_id" ==> f in row && d[f] == row[f])
  {
  }

  /** A document copied from a relational row holds a minted identifier in
      `_id` only. */
  lemma MigrateRowOidOnlyInId(row: Row, pk: Option<Name>, newId: nat)
    requires SqlRow(row)
    ensures OidOnlyInId(MigrateRow(row, pk, newId))
  {
    var d := MigrateRow(row, pk, newId);
    MigrateRowShape(row, pk, newId);
    forall f | f in d && f != "_id" ensures !d[f].Oid? {
      if f == "mysql_id" && HasPrimaryKey(pk) && pk.value != "mysql_id" {
        assert d[f] == OldId(row, pk.value);
      }
    }
  }

  /** The documents of a table whose identifiers are minted from `start` on,
      one per row and in row order. */
  function MigratedDocs(rows: seq<Row>, pk: Option<Name>, start: nat): (docs: seq<Doc>)
    ensures |docs| == |rows|
  {
    seq(|rows|, j requires 0 <= j < |rows| => MigrateRow(rows[j], pk, start + j))
  }

  /** The `j`-th document carries the `j`-th identifier and keeps the
      `j`-th row's value of any column other than `_id` and, in a table with
      a primary key, that key and `mysql_id`. */
  lemma MigratedDocFields(rows: seq<Row>, pk: Option<Name>, start: nat, j: nat, c: Name)
    requires j < |rows|
    ensures IdOf(MigratedDocs(rows, pk, start)[j]) == Oid(start + j)
    ensures c in rows[j] && c != "_id" && !(HasPrimaryKey(pk) && (c == "mysql_id" || c == pk.value)) ==>
      c in MigratedDocs(rows, pk, start)[j] && MigratedDocs(rows, pk, start)[j][c] == rows[j][c]
  {
    MigrateRowShape(rows[j], pk, start + j);
  }

  /** The row loop appends one document per step. */
  lemma MigratedDocsSnoc(rows: seq<Row>, i: nat, pk: Option<Name>, start: nat)
    requires i < |rows|
    ensures MigratedDocs(rows[..i + 1], pk, start) == MigratedDocs(rows[..i], pk, start) + [MigrateRow(rows[i], pk, start + i)]
  {
    var a := MigratedDocs(rows[..i + 1], pk, start);
    var b := MigratedDocs(rows[..i], pk, start) + [MigrateRow(rows[i], pk, start + i)];
    forall j | 0 <= j <= i ensures a[j] == b[j] {
      assert rows[..i + 1][j] == rows[j];
      if j < i { assert rows[..i][j] == rows[j]; }
    }
  }

  /** Minted documents form a valid collection of fresh identifiers. */
  lemma MigratedDocsFresh(rows: seq<Row>, pk: Option<Name>, start: nat)
    ensures CollectionValid(MigratedDocs(rows, pk, start), start + |rows|)
    ensures forall j :: 0 <= j < |rows| ==> IdOf(MigratedDocs(rows, pk, start)[j]) == Oid(start + j)
  {
  }

  function PkValues(rows: seq<Row>, pk: Name): set<Value>
  {
    set j | 0 <= j < |rows| :: OldId(rows[j], pk)
  }

  predicate DistinctPks(rows: seq<Row>, pk: Name)
  {
    forall i, j :: 0 <= i < j < |rows| ==> OldId(rows[i], pk) != OldId(rows[j], pk)
  }

  /** The identity map the row loop builds (`$idMap[$oldId] = $newId`). */
  function IdMapOf(rows: seq<Row>, pk: Name, start: nat): IdMap
    decreases |rows|
  {
    if |rows| == 0 then map[]
    else IdMapOf(rows[..|rows| - 1], pk, start)[OldId(rows[|rows| - 1], pk) := start + |rows| - 1]
  }

  /** The keys of the identity map are exactly the old key values of the
      rows. */
  lemma {:induction false} IdMapKeys(rows: seq<Row>, pk: Name, start: nat)
    ensures IdMapOf(rows, pk, start).Keys == PkValues(rows, pk)
  {
    if |rows| > 0 {
      var n := |rows| - 1;
      var prefix := rows[..n];
      IdMapKeys(prefix, pk, start);
      assert forall j :: 0 <= j < n ==> prefix[j] == rows[j];
      assert PkValues(rows, pk) == PkValues(prefix, pk) + {OldId(rows[n], pk)} by {
        forall k | k in PkValues(rows, pk) ensures k in PkValues(prefix, pk) + {OldId(rows[n], pk)} {
          var j :| 0 <= j < |rows| && OldId(rows[j], pk) == k;
          if j < n { assert OldId(prefix[j], pk) == k; }
        }
        forall k | k in PkValues(prefix, pk) ensures k in PkValues(rows, pk) {
          var j :| 0 <= j < n && OldId(prefix[j], pk) == k;
          assert OldId(rows[j], pk) == k;
        }
      }
    }
  }

  /** Old key values read from the relational source are never minted
      identifiers. */
  lemma PkValuesRelational(rows: seq<Row>, pk: Name)
    requires SqlRows(rows)
    ensures forall k :: k in PkValues(rows, pk) ==> !k.Oid?
  {
    forall k | k in PkValues(rows, pk) ensures !k.Oid? {
      var j :| 0 <= j < |rows| && OldId(rows[j], pk) == k;
      assert SqlRow(rows[j]);
    }
  }

  /** `n` is the identifier minted (from `start` on) for the last row whose
      old key value is `k`. */
  predicate MintedFor(rows: seq<Row>, pk: Name, start: nat, k: Value, n: nat)
  {
    && start <= n < start + |rows| && OldId(rows[n - start], pk) == k
    && forall l :: n - start < l < |rows| ==> OldId(rows[l], pk) != k
  }

  /** Every entry of the identity map points at the identifier minted for
      the last row holding that key value: a later row with the same value
      overwrites the entry. */
  lemma {:induction false} IdMapMintedFor(rows: seq<Row>, pk: Name, start: nat)
    ensures forall k :: k in IdMapOf(rows, pk, start) ==> MintedFor(rows, pk, start, k, IdMapOf(rows, pk, start)[k])
  {
    if |rows| > 0 {
      var n := |rows| - 1;
      var prefix := rows[..n];
      IdMapMintedFor(prefix, pk, start);
      var m := IdMapOf(prefix, pk, start);
      var m' := IdMapOf(rows, pk, start);
      assert m' == m[OldId(rows[n], pk) := start + n];
      assert forall l :: 0 <= l < n ==> prefix[l] == rows[l];
      forall k | k in m' ensures MintedFor(rows, pk, start, k, m'[k]) {
        if k != OldId(rows[n], pk) {
          assert MintedFor(prefix, pk, start, k, m[k]);
          assert prefix[m[k] - start] == rows[m[k] - start];
        }
      }
    }
  }

  /** Every entry of the identity map is one of the identifiers minted for
      the table's rows. */
  lemma IdMapRange(rows: seq<Row>, pk: Name, start: nat)
    ensures forall k :: k in IdMapOf(rows, pk, start) ==> start <= IdMapOf(rows, pk, start)[k] < start + |rows|
  {
    IdMapMintedFor(rows, pk, start);
  }

  /** The identity maps of two tables whose identifier ranges do not
      overlap share no identifier. */
  lemma IdMapsApart(m1: IdMap, rows1: seq<Row>, pk1: Name, start1: nat, m2: IdMap, rows2: seq<Row>, pk2: Name, start2: nat)
    requires m1 == IdMapOf(rows1, pk1, start1) && m2 == IdMapOf(rows2, pk2, start2)
    requires start1 + |rows1| <= start2 || start2 + |rows2| <= start1
    ensures forall x, y :: x in m1 && y in m2 ==> m1[x] != m2[y]
  {
    IdMapRange(rows1, pk1, start1);
    IdMapRange(rows2, pk2, start2);
  }

  /** With distinct key values, the key of row `j` maps to the `j`-th
      minted identifier. */
  lemma IdentityMapEntry(rows: seq<Row>, pk: Name, start: nat, j: nat)
    requires DistinctPks(rows, pk) && j < |rows|
    ensures OldId(rows[j], pk) in IdMapOf(rows, pk, start)
    ensures IdMapOf(rows, pk, start)[OldId(rows[j], pk)] == start + j
  {
    IdMapKeys(rows, pk, start);
    IdMapMintedFor(rows, pk, start);
    var k := OldId(rows[j], pk);
    assert k in PkValues(rows, pk);
    assert MintedFor(rows, pk, start, k, IdMapOf(rows, pk, start)[k]);
  }

  /** For a table whose key values are distinct (as a primary key makes
      them), every old key maps to the identifier of its own row's document,
      and that document keeps the old key in `mysql_id` unless the key column
      is itself named `mysql_id`. */
  lemma IdentityMapPointsToDocument(rows: seq<Row>, pk: Name, start: nat)
    requires DistinctPks(rows, pk)
    requires pk != "" && pk != "0"
    ensures forall j :: 0 <= j < |rows| ==>
      && OldId(rows[j], pk) in IdMapOf(rows, pk, start)
      && IdOf(MigratedDocs(rows, Some(pk), start)[j]) == Oid(IdMapOf(rows, pk, start)[OldId(rows[j], pk)])
      && (pk != "mysql_id" ==>
            "mysql_id" in MigratedDocs(rows, Some(pk), start)[j]
            && MigratedDocs(rows, Some(pk), start)[j]["mysql_id"] == OldId(rows[j], pk))
  {
    var m := IdMapOf(rows, pk, start);
    var docs := MigratedDocs(rows, Some(pk), start);
    forall j | 0 <= j < |rows|
      ensures OldId(rows[j], pk) in m
      ensures IdOf(docs[j]) == Oid(m[OldId(rows[j], pk)])
      ensures pk != "mysql_id" ==> "mysql_id" in docs[j] && docs[j]["mysql_id"] == OldId(rows[j], pk)
    {
      IdentityMapEntry(rows, pk, start, j);
      MigrateRowShape(rows[j], Some(pk), start + j);
    }
  }

  /** Different old keys never share an identifier. */
  lemma IdentityMapInjective(rows: seq<Row>, pk: Name, start: nat)
    ensures forall k1, k2 :: k1 in IdMapOf(rows, pk, start) && k2 in IdMapOf(rows, pk, start) && k1 != k2 ==>
      IdMapOf(rows, pk, start)[k1] != IdMapOf(rows, pk, start)[k2]
  {
    IdMapMintedFor(rows, pk, start);
    forall k1, k2 | k1 in IdMapOf(rows, pk, start) && k2 in IdMapOf(rows, pk, start) && k1 != k2
      ensures IdMapOf(rows, pk, start)[k1] != IdMapOf(rows, pk, start)[k2]
    {
      assert MintedFor(rows, pk, start, k1, IdMapOf(rows, pk, start)[k1]);
      assert MintedFor(rows, pk, start, k2, IdMapOf(rows, pk, start)[k2]);
    }
  }
}
